=== FILE: README.md ===
# Darab Cement site: verified model of its listing, editing and rendering rules

This project is a Dafny model of the small rules inside the Darab Cement
website front end (a Next.js application). Most of that application is
markup and HTTP glue. The rules it models are these:

- the blog listing's **pagination control**;
- the **tag filter** and **search box** rewriting the listing's query
  parameters;
- the **posts API client**, which builds the listing URL and fails open to a
  fixed empty page;
- the admin "create post" form: **slug generation**, the **auto-slug rule**
  and the **submit sequence**;
- the **image URL joiner**;
- the **related-posts sidebar** with its tag-stripped excerpt;
- the home page's **news block** (main story plus three cards);
- the admin **post list**: load, delete and the status badge;
- the two **star-rating** renderers.

Every rule is a pure function over integers, strings (`seq<char>`), lists and
query parameters (`map<string, string>`). Network calls, `encodeURIComponent`,
dialogs and the environment become parameters or outcome datatypes.

Modules, one per source file, plus `Common`:

- `Common`: options, query maps, `Filter`/`RemoveAll`, JavaScript decimal
  integers, and `split`/`join` on one character.
- `Pagination`: `app/blog/components/Pagination.tsx`
- `TagFilter`: `app/blog/components/TagFilter.tsx`
- `BlogSearch`: `app/blog/components/BlogSearch.tsx`
- `PostsApi`: `lib/api.ts`
- `CreatePost`: `app/admin/blog/create/page.tsx`
- `ImageUrl`: `lib/parseImageURL.ts`
- `RelatedPosts`: `components/RelatedPosts.tsx`
- `NewsSection`: `components/NewsSection.tsx`
- `AdminPosts`: `app/admin/blog/page.tsx`
- `Stars`: `components/RatingStars.tsx` and `js/star.js`

The blog page's own fetch falls back to `totalPages: 1`
(`app/blog/page.tsx:49`), while the posts client falls back to `0`
(`lib/api.ts:61`); the model follows the posts client. Either value hides
the pagination control, which renders only for two or more pages
(`Pagination.Render`, `PostsApi.FallbackHidesPagination`).

## Model

| member | source | states |
|---|---|---|
| `Common.JoinSplit` | app/blog/components/TagFilter.tsx:22 | Joining the comma split of a string gives the string back. |
| `Common.SplitJoin` | app/blog/components/TagFilter.tsx:34 | Splitting the join of a non-empty list of comma-free pieces gives the list back. |
| `Common.Split` | app/blog/components/TagFilter.tsx:22 | `split(",")` always yields at least one piece, and no piece holds the separator; `Common.JoinSplit` and `Common.SplitJoin` make it the inverse of `Join`. |
| `Common.Join` | app/blog/components/TagFilter.tsx:34 | `join(",")` is at least as long as every piece and has at most one character fewer than the list has pieces; its inverse is `Split` (`Common.SplitJoin`, `Common.JoinSplit`). |
| `Common.IntToString` | app/blog/components/Pagination.tsx:22 | `page.toString()` is a minus sign exactly for negative numbers, followed by digits with no leading zero. Zero is `"0"`, never `"-0"`. `Common.IntToStringRoundTrip` reads it back. |
| `Common.IntToStringRoundTrip` | app/blog/components/Pagination.tsx:22 | The decimal text JavaScript gives an integer reads back as that integer. |
| `Common.IntToStringInjective` | app/blog/components/Pagination.tsx:22 | Different page numbers give different decimal texts. |
| `Common.RemoveAll` | app/blog/components/TagFilter.tsx:27 | Removing a value leaves a subsequence with no copy of it, keeps every other element and shortens the list by exactly the number of copies. |
| `Common.CountPlusOthers` | app/blog/components/TagFilter.tsx:27 | Every element is either a copy of the value or kept by the removal. |
| `Common.Filter` | app/admin/blog/create/page.tsx:40 | Filtering keeps exactly the elements that pass, in order, as a subsequence, and its length is the number of elements that pass (so duplicates are kept). |
| `Common.FilterUnique` | app/admin/blog/create/page.tsx:40 | Any subsequence of passing elements as long as their count is the filter's result, so the filter's contract determines it. |
| `Common.FilterIdempotent` | app/admin/blog/create/page.tsx:40 | Filtering a second time with the same test changes nothing. |
| `Pagination.PageWindow` | app/blog/components/Pagination.tsx:30-36 | With two or more pages, the window lies in `[1, total]` and is `min(3, total)` wide. It contains the current page whenever that page is in range. Its start is `max(1, min(current - 1, total - 2))`. |
| `Pagination.PageUrl` | app/blog/components/Pagination.tsx:20-24 | A page link sets only `page`, which reads back as the page number; every other parameter is kept. |
| `Pagination.Render` | app/blog/components/Pagination.tsx:27-113 | The control is empty exactly when there is at most one page, and it never has more than nine elements. Its arrows, pages, active link and ellipses are stated by `Pagination.RenderArrows`, `Pagination.RenderPages`, `Pagination.RenderActive` and `Pagination.RenderEllipses`. |
| `Pagination.Strip` | app/blog/components/Pagination.tsx:52-102 | The numbered part holds the `min(3, total)` window links and at most four edge elements. Its order and gaps are stated by `Pagination.StripItems` and `Pagination.StripGapsMarked`. |
| `Pagination.WindowLinks` | app/blog/components/Pagination.tsx:69-85 | One link per page of the window, in order, each active exactly when it is the current page. |
| `Pagination.RenderArrows` | app/blog/components/Pagination.tsx:41-49 | The previous arrow appears iff `current > 1`, first and pointing at `current - 1`. The next arrow appears iff `current < total`, last and pointing at `current + 1`. |
| `Pagination.LeadingFacts` | app/blog/components/Pagination.tsx:52-66 | The page-1 link appears iff the window starts after 1. The leading ellipsis appears iff it starts after 2. |
| `Pagination.TrailingFacts` | app/blog/components/Pagination.tsx:88-102 | The last-page link appears iff the window ends before the last page. The trailing ellipsis appears iff it ends before `total - 1`. |
| `Pagination.WindowLinksFacts` | app/blog/components/Pagination.tsx:69-85 | The window's links are its pages in order, no ellipsis among them. One of them is active exactly when the current page is inside the window. |
| `Pagination.StripItems` | app/blog/components/Pagination.tsx:52-102 | The numbered part always runs from the page-1 link to the last-page link. It holds only links and ellipses. Every link is in `[1, total]` and is active iff it is the current page. |
| `Pagination.StripGapsMarked` | app/blog/components/Pagination.tsx:52-102 | Adjacent links are consecutive pages. Every ellipsis sits between two links over a real gap. |
| `Pagination.RenderPages` | app/blog/components/Pagination.tsx:41-113 | The pages linked are strictly increasing (no duplicates), run from 1 to `total` and stay in range. There are `min(3, total)` plus one per edge link. |
| `Pagination.RenderActive` | app/blog/components/Pagination.tsx:77-81 | Exactly one link is active when the current page is in `[1, total]`, none otherwise. |
| `Pagination.FirstOfTen` | app/blog/components/Pagination.tsx:30-113 | With ten pages on page 1, the control is pages 1–3 (1 active), an ellipsis, page 10 and a next arrow to page 2. |
| `Pagination.LastOfTen` | app/blog/components/Pagination.tsx:30-113 | With ten pages on page 10, the control is a previous arrow to 9, page 1, an ellipsis and pages 8–10 (10 active). |
| `Pagination.RenderEllipses` | app/blog/components/Pagination.tsx:60-64 | The leading ellipsis is present iff the window starts after 2. The trailing ellipsis is present iff the window ends before `total - 1`. The ellipsis count is the sum of the two. |
| `TagFilter.CurrentTags` | app/blog/components/TagFilter.tsx:22 | The selection is empty without `tags`. Otherwise it is the comma split of `tags`: at least one piece, none holding a comma, joining back to the parameter. |
| `TagFilter.Toggle` | app/blog/components/TagFilter.tsx:25-31 | A selected tag is removed everywhere, the others kept in order. A new tag is appended after the unchanged list. |
| `TagFilter.TagClick` | app/blog/components/TagFilter.tsx:19-40 | `page` becomes `"1"` and parameters other than `tags` and `page` are unchanged. `tags` is deleted iff the toggled list is empty, and otherwise holds its comma join. |
| `TagFilter.ClickReadsBack` | app/blog/components/TagFilter.tsx:22-37 | After a click, the selection read from the new query is the toggled selection. |
| `TagFilter.ClickTwiceRestores` | app/blog/components/TagFilter.tsx:25-40 | Clicking a new tag twice restores the query except for `page`. |
| `TagFilter.RenderButtons` | app/blog/components/TagFilter.tsx:47-63 | Nothing is rendered without tags. Otherwise there is one button per tag, in order, lit iff the tag is active. |
| `BlogSearch.Search` | app/blog/components/BlogSearch.tsx:19-32 | A non-empty query sets `search` to exactly that query; an empty one deletes it. `page` becomes `"1"` and all other parameters are kept. |
| `BlogSearch.SearchIdempotent` | app/blog/components/BlogSearch.tsx:19-32 | Submitting the same query again changes nothing. |
| `BlogSearch.OnEvent` | app/blog/components/BlogSearch.tsx:40-46 | Enter and the button cause the same update; other keys cause none. |
| `PostsApi.ParseSection` | lib/api.ts:9 | A label read back as a section is that section's label. |
| `PostsApi.SectionLabelRoundTrip` | lib/api.ts:9 | Each of the four section labels reads back as its own section, so the labels are distinct. |
| `PostsApi.ApiBase` | lib/api.ts:32 | The base is the environment value when it is set and non-empty, else `http://localhost:3100`. |
| `PostsApi.PostsQuery` | lib/api.ts:41-44 | The query starts with `page` then `limit`. It goes on past them iff a non-empty section is given, and then only with the single field `&section=` plus the encoded section. Its read-back is `PostsApi.PostsQueryReadsBack`. |
| `PostsApi.PostsUrl` | lib/api.ts:41-44 | The URL is the API base, `/posts?`, then exactly the listing query. |
| `PostsApi.PostsQueryReadsBack` | lib/api.ts:41-44 | The listing query reads back as `page` and `limit` with their integer values. `section` is present iff the section argument is a non-empty string, and then holds its encoding. No other field appears. |
| `PostsApi.Fallback` | lib/api.ts:53-63 | The failure page has no posts, page 1, the requested page size, 0 items and 0 pages. |
| `PostsApi.FetchPosts` | lib/api.ts:34-65 | The URL uses page 1 and limit 10 by default. A 2xx response's body is returned. A non-2xx status or an exception gives the failure page; nothing is raised. |
| `PostsApi.FallbackHidesPagination` | lib/api.ts:53-63 | After any failed request, the listing's pagination control is empty. |
| `CreatePost.GenerateSlug` | app/admin/blog/create/page.tsx:37-42 | A slug has no whitespace and no ASCII capital. Every character is a word character, in U+0600–U+06FF, or `-`. No two hyphens are adjacent. |
| `CreatePost.Lower` | app/admin/blog/create/page.tsx:39 | Lower-casing keeps the length and maps each character on its own; it changes no character's class (word, Arabic block, whitespace) and leaves no ASCII capital. |
| `CreatePost.CollapseSpaces` | app/admin/blog/create/page.tsx:41 | The result is no longer than the input and has no whitespace; `CollapseNoSpace`, `CollapseRun` and `CollapseAppend` determine it. |
| `CreatePost.CollapseNoSpace` | app/admin/blog/create/page.tsx:41 | Text without whitespace is left as it is. |
| `CreatePost.CollapseRun` | app/admin/blog/create/page.tsx:41 | A whitespace run of any length becomes one hyphen. |
| `CreatePost.CollapseAppend` | app/admin/blog/create/page.tsx:41 | Collapsing two parts that do not split a whitespace run gives the two collapses joined, so each run is replaced where it stands. |
| `CreatePost.CollapseWordRun` | app/admin/blog/create/page.tsx:41 | A word, a whitespace run and a rest not starting with whitespace collapse to the word, one hyphen, and the collapsed rest. |
| `CreatePost.SlugWordRun` | app/admin/blog/create/page.tsx:37-42 | In the slug of a clean lower-case title, a word followed by whitespace becomes the word and one hyphen, followed by the slug of the rest. |
| `CreatePost.SlugMatchesTitle` | app/admin/blog/create/page.tsx:40-41 | The slug has one hyphen per whitespace run of the filtered, lower-cased title. Without its hyphens, it is exactly that title's non-space characters. |
| `CreatePost.ChangeTitle` | app/admin/blog/create/page.tsx:26-34 | A title edit regenerates the slug iff the slug is empty or equals the old title's slug; otherwise the hand-edited slug is kept. |
| `CreatePost.ManualEditSticks` | app/admin/blog/create/page.tsx:158 | A non-empty slug typed by hand survives the next title edit unless it equals the current title's slug; an empty one, or the title's own slug, is regenerated from the new title. |
| `CreatePost.SlugKeepsFollowing` | app/admin/blog/create/page.tsx:26-34 | A slug that follows the title keeps following it through any sequence of title edits, ending as the last title's slug. |
| `CreatePost.ManualSlugKept` | app/admin/blog/create/page.tsx:30-33 | A hand-edited slug survives title edits so long as none of the replaced titles generates it. |
| `CreatePost.FailureMessage` | app/admin/blog/create/page.tsx:85-97 | A non-ok response shows the server's `error` text when it is non-empty, else `خطا در ایجاد مقاله`. A thrown `Error` shows its message; any other thrown value shows the generic message. |
| `CreatePost.Submit` | app/admin/blog/create/page.tsx:44-101 | A missing title, a missing editor and empty content are checked in that order, each with its own message and no request. A request carrying the form's fields is sent iff all three pass, and loading is then cleared. Success navigates to `/admin/blog` with no error. Any failure, non-ok or thrown, leaves exactly the failure message and does not navigate. |
| `ImageUrl.Prefix` | lib/parseImageURL.ts:3-5 | The text before a path ends in a slash; an unset base gives `undefined/`. |
| `ImageUrl.ImageUrlShape` | lib/parseImageURL.ts:1-6 | The URL is empty iff the path is missing or empty. A non-empty path ends the URL, right after a slash. |
| `RelatedPosts.TagEnd` | components/RelatedPosts.tsx:42 | A tag match is a `<`, one or more non-`>` characters, then the first `>`. There is no match at a `<` not directly followed by `>` only when no `>` follows at all. |
| `RelatedPosts.StripTags` | components/RelatedPosts.tsx:42 | Stripping never lengthens the text and adds no character. `RelatedPosts.StripText`, `RelatedPosts.StripEmptyBrackets`, `RelatedPosts.StripTag` and `RelatedPosts.StripTagsIdempotent` state what it keeps and what it removes. `RelatedPosts.StripTagsNoTag` states that no tag is left. |
| `RelatedPosts.StripText` | components/RelatedPosts.tsx:42 | Text holding no `<` is kept, unchanged, in front of the stripped rest. |
| `RelatedPosts.StripEmptyBrackets` | components/RelatedPosts.tsx:42 | `<>` is not a tag: it is kept, and stripping continues right after it. |
| `RelatedPosts.StripTag` | components/RelatedPosts.tsx:42 | A whole tag (`<`, one or more non-`>` characters, `>`) at the front is removed, and stripping continues right after it. Together with `StripText`, this fixes the result on all text made of tags and `<`-free runs. |
| `RelatedPosts.StripEnclosed` | components/RelatedPosts.tsx:42 | Text between an opening and a closing tag, such as `<b>hi</b>`, strips to the text alone. |
| `RelatedPosts.IndexFrom` | components/RelatedPosts.tsx:42 | It finds the first occurrence of a character at or after a position, or proves there is none. |
| `RelatedPosts.StripTagsNoTag` | components/RelatedPosts.tsx:42 | Stripped text contains no `<`, then non-`>` characters, then `>` run. |
| `RelatedPosts.StripTagsIdempotent` | components/RelatedPosts.tsx:42 | Text without such runs is unchanged by stripping, so stripping twice is stripping once. |
| `RelatedPosts.Excerpt` | components/RelatedPosts.tsx:42 | The excerpt is at most 63 characters and ends with `...`. Before that it is the first 60 characters of the stripped content; for missing content it is just `...`. |
| `RelatedPosts.ExcerptHasNoTag` | components/RelatedPosts.tsx:42 | The excerpt's text is a prefix of the stripped content and contains no tag. |
| `RelatedPosts.Render` | components/RelatedPosts.tsx:17-45 | Nothing is rendered for a missing or empty list. Otherwise there is one entry per post, in order, linking to `/blog/` plus the id. It shows the joined image URL iff the lead picture is non-empty, and the post's excerpt. |
| `NewsSection.ImageOf` | components/NewsSection.tsx:59 | An image source is empty exactly when the post has no lead picture. |
| `NewsSection.Render` | components/NewsSection.tsx:11-106 | Nothing is rendered for a missing or empty list. The main story is the first post. The cards are the next `min(3, n - 1)` posts in order, and only the card at index 2 is highlighted. The main story and every card show their own post's image source (`NewsSection.ImageOf`). |
| `NewsSection.RenderIsPrefix` | components/NewsSection.tsx:16-17 | The block shows exactly the first `min(4, n)` posts, in order, each once. |
| `NewsSection.HighlightIffFourPosts` | components/NewsSection.tsx:100-114 | A highlighted card exists iff there are at least four posts, and it shows the fourth post. |
| `AdminPosts.Load` | app/admin/blog/page.tsx:21-41 | Loading always ends. Success installs the posts; failure keeps them and sets the fixed error message. |
| `AdminPosts.WithoutId` | app/admin/blog/page.tsx:57 | Every post with the id is removed and every other post is kept, in order. The list shrinks by exactly the number of posts carrying the id. |
| `AdminPosts.KeptPlusRemoved` | app/admin/blog/page.tsx:57 | Every post either carries the id or survives its deletion. |
| `AdminPosts.Delete` | app/admin/blog/page.tsx:44-63 | A declined confirmation sends no request and changes nothing. A confirmed success removes the id's posts, and only those, and keeps the rest in order. A confirmed failure changes nothing and alerts. |
| `AdminPosts.DeleteIdempotent` | app/admin/blog/page.tsx:57 | Deleting the same post again leaves the list as it is. |
| `AdminPosts.DeleteAbsent` | app/admin/blog/page.tsx:57 | Deleting an id not in the list changes nothing, whatever the outcome. |
| `AdminPosts.StatusLabel` | app/admin/blog/page.tsx:192 | A published post's badge is the published label, any other's the draft label; `AdminPosts.StatusLabelsDistinct` shows they differ. |
| `AdminPosts.StatusLabelsDistinct` | app/admin/blog/page.tsx:192 | The published and draft badges differ. |
| `AdminPosts.View` | app/admin/blog/page.tsx:99-215 | The banner shows iff there is an error. The spinner shows iff loading; the empty state iff loaded with no posts. Otherwise the table has one row per post, in order, whose badge reads published iff the post is and draft iff it is not. A row's excerpt shows iff non-empty and is then the post's own, and it links to `/admin/blog/edit/` plus the id. |
| `AdminPosts.LoadedView` | app/admin/blog/page.tsx:21-41 | After the load the spinner is gone. A failed load shows the banner over the empty state; a successful one shows no banner, and the empty state iff there are no posts. |
| `Stars.RatingStars` | components/RatingStars.tsx:10-11 | There are always five stars, and star `i` is filled iff `i <= rounded`. |
| `Stars.RatingStarsCount` | components/RatingStars.tsx:10-11 | The filled stars form a prefix, and there are `clamp(rounded, 0, 5)` of them. |
| `Stars.StarList` | js/star.js:8-16 | An empty slot adds nothing. A number `n` gives `max(0, n) + max(0, 5 - n)` stars, full ones first. Text that is not a number gives an empty list. |
| `Stars.StarListCounts` | js/star.js:11-16 | There are `max(0, n)` full stars, and five stars in all iff `0 <= n <= 5`. |
| `Stars.ScriptAgreesWithComponent` | js/star.js:11-16 | For a rating from 0 to 5, the script draws the same stars as the component. |

## Left out

- Network requests (`fetch` in `lib/api.ts`, the admin pages and the create form) are out of scope. Each is a parameter of the model, or its outcome is a datatype (`FetchOutcome`, `LoadOutcome`, `DeleteOutcome`, `CreateResponse`).
- `encodeURIComponent` and `URLSearchParams` serialisation are left out. The encoder is a function parameter; the read-back lemma only requires that it never emits `&` or `=`. Query parameters are a map holding one value per name.
- Navigation (`router.push`), `window.confirm`, `alert` and `console` are left out. They are side effects; the model keeps the values they receive (`navigateTo`, `confirmed`, `alerted`).
- Date formatting (`Date`, `Intl.DateTimeFormat`) is left out: it depends on locale and calendar libraries.
- `Math.round` on a floating-point rating is left out. `Stars.RatingStars` takes the already rounded integer.
- `CreatePost.GenerateSlug`: `toLowerCase` is modelled for ASCII letters only. Other characters are unchanged, so non-ASCII case mappings are not modelled.
- `RelatedPosts.Excerpt`: `slice(0, 60)` is taken over characters. JavaScript counts UTF-16 code units, which differ for characters outside the Basic Multilingual Plane.
- Numbers are unbounded integers. JavaScript numbers are doubles: past 2^53 they lose precision, and from 1e21 `toString` uses exponent notation. This affects `Common.IntToString` and the pagination arithmetic only for page numbers no listing reaches.
- `Stars.StarList`: a slot is modelled as empty, an integer's decimal text, or non-numeric text. Fractional text (`"3.5"`) and text with a numeric prefix (`"3a"`) are left out. There, `Number` and `parseInt` disagree. The slot `"Infinity"` is also left out: the script's loop (`js/star.js:11`) would then never end.
- `PostsApi.FetchPosts`: the page and limit are integers. JavaScript's rendering of fractional numbers in the URL is not modelled.
- The rating figures of a post (`averageRating`, `totalRatings`) are left out: no modelled rule reads them.
- The request body's JSON encoding and the response's JSON parsing are left out. A body that cannot be read is one more exception outcome.
- Closure staleness in the admin delete handler is left out: the state is taken to be current when a delete ends.
- The blog page's own fetch and its fallback (`totalPages: 1`, `app/blog/page.tsx:49`) are not part of this model. A normaliser of incoming query parameters and an aggregator of the tags shown are also left out: the modelled files contain neither.
- Presentational components, configuration files, type declarations and the editor/session wiring are left out: they hold no rule beyond markup.

=== FILE: admin_posts.dfy ===
/**
  The admin post list: loading the list once, deleting a post after a
  confirmation, and what the page shows for each state (spinner, empty state
  or table, with an error banner above).
*/
module AdminPosts {
  import opened Common

  /** A post as the admin list receives it. */
  datatype AdminPost = AdminPost(id: string, title: string, excerpt: Option<string>, published: bool, createdAt: string)

  /** The page's state: the list, whether it is still loading, and the banner text. */
  datatype State = State(posts: seq<AdminPost>, loading: bool, error: string)

  const LoadFailedMessage := "Failed to load posts. Please try again."
  const PublishedLabel := "منتشر شده"
  const DraftLabel := "پیش\U{200C}نویس"
  const EditPrefix := "/admin/blog/edit/"

  /** Before the list request has answered: no posts, loading, no error. */
  const Initial := State([], true, "")

  /** How the list request ended: a 2xx response with its posts, or anything
      else (another status, an unreadable body, a network failure). */
  datatype LoadOutcome = Loaded(posts: seq<AdminPost>) | LoadFailed

  /** The state once the list request has ended: the posts on success, the
      fixed message on failure; loading stops either way. */
  function Load(s: State, outcome: LoadOutcome): (r: State)
    ensures !r.loading
    ensures outcome.Loaded? ==> r.posts == outcome.posts && r.error == s.error
    ensures outcome.LoadFailed? ==> r.posts == s.posts && r.error == LoadFailedMessage
  {
    match outcome
    case Loaded(posts) => s.(posts := posts, loading := false)
    case LoadFailed => s.(loading := false, error := LoadFailedMessage)
  }

  /** Whether a post survives the deletion of `id`. */
  function KeepOther(id: string): AdminPost -> bool {
    (p: AdminPost) => p.id != id
  }

  /** How many posts carry `id`. */
  function CountId(posts: seq<AdminPost>, id: string): (n: nat)
    ensures n <= |posts|
  {
    if |posts| == 0 then 0 else (if posts[0].id == id then 1 else 0) + CountId(posts[1..], id)
  }

  /** Every post either carries `id` or survives its deletion. */
  lemma {:induction false} KeptPlusRemoved(posts: seq<AdminPost>, id: string)
    ensures CountWhere(posts, KeepOther(id)) + CountId(posts, id) == |posts|
  {
    if |posts| > 0 {
      KeptPlusRemoved(posts[1..], id);
    }
  }

  /** The list with every post carrying `id` left out, the others in order:
      exactly one post fewer for every post that carried it. */
  function WithoutId(posts: seq<AdminPost>, id: string): (r: seq<AdminPost>)
    ensures |r| + CountId(posts, id) == |posts|
    ensures Subsequence(r, posts)
    ensures forall i :: 0 <= i < |r| ==> r[i].id != id && r[i] in posts
    ensures forall i :: 0 <= i < |posts| && posts[i].id != id ==> posts[i] in r
  {
    KeptPlusRemoved(posts, id);
    Filter(posts, KeepOther(id))
  }

  ghost predicate HasId(posts: seq<AdminPost>, id: string) {
    exists i :: 0 <= i < |posts| && posts[i].id == id
  }

  /** Removing an id nobody carries changes nothing. */
  lemma WithoutAbsentId(posts: seq<AdminPost>, id: string)
    requires !HasId(posts, id)
    ensures WithoutId(posts, id) == posts
  {
    FilterAllKept(posts, KeepOther(id));
  }

  /** How the delete request ended. */
  datatype DeleteOutcome = Deleted | DeleteFailed

  /** A delete's effect: the new state, whether a request was sent, and
      whether the failure alert was shown. */
  datatype DeleteResult = DeleteResult(state: State, requested: bool, alerted: bool)

  /** Deleting `id`: nothing at all unless confirmed; after a confirmed,
      successful request the post disappears from the list; after a failed one
      the list stays and an alert is shown. */
  function Delete(s: State, id: string, confirmed: bool, outcome: DeleteOutcome): (r: DeleteResult)
    ensures r.requested <==> confirmed
    ensures r.alerted <==> confirmed && outcome.DeleteFailed?
    ensures !(confirmed && outcome.Deleted?) ==> r.state == s
    ensures confirmed && outcome.Deleted? ==>
      && !HasId(r.state.posts, id)
      && |r.state.posts| + CountId(s.posts, id) == |s.posts|
      && Subsequence(r.state.posts, s.posts)
      && (forall i :: 0 <= i < |s.posts| && s.posts[i].id != id ==> s.posts[i] in r.state.posts)
      && r.state.loading == s.loading && r.state.error == s.error
  {
    if !confirmed then DeleteResult(s, false, false)
    else match outcome
      case Deleted => DeleteResult(s.(posts := WithoutId(s.posts, id)), true, false)
      case DeleteFailed => DeleteResult(s, true, true)
  }

  /** Deleting the same post twice leaves the list as deleting it once. */
  lemma DeleteIdempotent(s: State, id: string)
    ensures var once := Delete(s, id, true, Deleted).state;
      Delete(once, id, true, Deleted).state == once
  {
    var once := Delete(s, id, true, Deleted).state;
    WithoutAbsentId(once.posts, id);
  }

  /** Deleting an id that is not in the list changes nothing, even on success. */
  lemma DeleteAbsent(s: State, id: string, confirmed: bool, outcome: DeleteOutcome)
    requires !HasId(s.posts, id)
    ensures Delete(s, id, confirmed, outcome).state == s
  {
    WithoutAbsentId(s.posts, id);
  }

  /** The status badge of a post. */
  function StatusLabel(published: bool): (r: string)
    ensures published ==> r == PublishedLabel
    ensures !published ==> r == DraftLabel
  {
    if published then PublishedLabel else DraftLabel
  }

  /** The two labels differ, so the badge tells a reader which state a post is in. */
  lemma StatusLabelsDistinct()
    ensures StatusLabel(true) != StatusLabel(false)
  {
    assert PublishedLabel[0] != DraftLabel[0];
  }

  /** One table row: the title, the excerpt when it is non-empty, the status
      badge and the edit link. */
  datatype Row = Row(title: string, excerpt: Option<string>, status: string, editHref: string, id: string)

  datatype Body = Spinner | EmptyState | Table(rows: seq<Row>)

  datatype Screen = Screen(banner: Option<string>, body: Body)

  function RowOf(p: AdminPost): Row {
    Row(p.title,
        if p.excerpt.Some? && p.excerpt.value != "" then p.excerpt else None,
        StatusLabel(p.published), EditPrefix + p.id, p.id)
  }

  /** What the page shows: a banner exactly when there is an error; a spinner
      while loading; the empty state once loaded with no posts; otherwise one
      row per post, in order. */
  function View(s: State): (r: Screen)
    ensures r.banner.Some? <==> s.error != ""
    ensures r.banner.Some? ==> r.banner.value == s.error
    ensures r.body.Spinner? <==> s.loading
    ensures r.body.EmptyState? <==> !s.loading && |s.posts| == 0
    ensures r.body.Table? ==> |r.body.rows| == |s.posts| > 0
    ensures r.body.Table? ==> forall i :: 0 <= i < |s.posts| ==>
      && r.body.rows[i].id == s.posts[i].id
      && r.body.rows[i].title == s.posts[i].title
      && (r.body.rows[i].status == PublishedLabel <==> s.posts[i].published)
      && (r.body.rows[i].status == DraftLabel <==> !s.posts[i].published)
      && (r.body.rows[i].excerpt.Some? <==> s.posts[i].excerpt.Some? && s.posts[i].excerpt.value != "")
      && (r.body.rows[i].excerpt.Some? ==> r.body.rows[i].excerpt == s.posts[i].excerpt)
      && r.body.rows[i].editHref == EditPrefix + s.posts[i].id
  {
    StatusLabelsDistinct();
    var banner := if s.error != "" then Some(s.error) else None;
    if s.loading then Screen(banner, Spinner)
    else if |s.posts| == 0 then Screen(banner, EmptyState)
    else Screen(banner, Table(seq(|s.posts|, i requires 0 <= i < |s.posts| => RowOf(s.posts[i]))))
  }

  /** After the load, the page never shows the spinner again: a failed load
      shows the banner over the empty state, a successful one the table or the
      empty state with no banner. */
  lemma LoadedView(outcome: LoadOutcome)
    ensures var v := View(Load(Initial, outcome));
      && !v.body.Spinner?
      && (outcome.LoadFailed? ==> v.banner == Some(LoadFailedMessage) && v.body == EmptyState)
      && (outcome.Loaded? ==> v.banner.None? && (v.body.EmptyState? <==> |outcome.posts| == 0))
  {
  }
}

=== FILE: blog_search.dfy ===
/**
  The blog listing's search box: submitting a query writes it into the
  `search` parameter (or deletes the parameter for an empty query) and resets
  the listing to page 1. Enter in the text field and the search button submit
  the same way.
*/
module BlogSearch {
  import opened Common

  /** The query after submitting `query`. */
  function Search(params: Params, query: string): (r: Params)
    ensures query != "" ==> "search" in r && r["search"] == query
    ensures query == "" ==> "search" !in r
    ensures "page" in r && r["page"] == "1"
    ensures forall k :: k != "search" && k != "page" ==> (k in r <==> k in params)
    ensures forall k :: k in params && k != "search" && k != "page" ==> r[k] == params[k]
  {
    var withSearch := if query != "" then params["search" := query] else params - {"search"};
    withSearch["page" := "1"]
  }

  /** Submitting the same query twice is the same as submitting it once. */
  lemma SearchIdempotent(params: Params, query: string)
    ensures Search(Search(params, query), query) == Search(params, query)
  {
    var once := Search(params, query);
    var twice := Search(once, query);
    assert twice.Keys == once.Keys;
  }

  /** What the reader does in the search box. */
  datatype Event = KeyDown(key: string) | ButtonClick

  /** The navigation an event causes: Enter and the button both submit; any
      other key navigates nowhere. */
  function OnEvent(params: Params, query: string, event: Event): (r: Option<Params>)
    ensures event == ButtonClick || event == KeyDown("Enter") ==> r == Some(Search(params, query))
    ensures event.KeyDown? && event.key != "Enter" ==> r == None
  {
    match event
    case KeyDown(key) => if key == "Enter" then Some(Search(params, query)) else None
    case ButtonClick => Some(Search(params, query))
  }
}

=== FILE: common.dfy ===
/**
  Shared vocabulary of the site model: optional values, query parameters as a
  map, the JavaScript decimal rendering of integers, comma lists as produced by
  `String.prototype.split` and `Array.prototype.join`, and order-preserving
  filtering.
*/
module Common {

  /** An absent-or-present value (JavaScript's `undefined`/`null` versus a value). */
  datatype Option<+T> = None | Some(value: T)

  /** URL query parameters, one value per name, as `URLSearchParams` holds them
      for the single-valued names this site uses. */
  type Params = map<string, string>

  function Max(a: int, b: int): int { if a >= b then a else b }
  function Min(a: int, b: int): int { if a <= b then a else b }

  /** `a` is `b` with some elements left out, the rest in their original order. */
  ghost predicate Subsequence<T>(a: seq<T>, b: seq<T>)
    decreases |b|
  {
    if |a| == 0 then true
    else if |b| == 0 then false
    else (a[0] == b[0] && Subsequence(a[1..], b[1..])) || Subsequence(a, b[1..])
  }

  /** Number of occurrences of `x` in `s`. */
  function Count<T(==)>(s: seq<T>, x: T): (n: nat)
    ensures n <= |s|
    ensures n == 0 <==> x !in s
  {
    if |s| == 0 then 0 else (if s[0] == x then 1 else 0) + Count(s[1..], x)
  }

  /** Number of elements of `s` satisfying `p`. */
  function CountWhere<T>(s: seq<T>, p: T -> bool): (n: nat)
    ensures n <= |s|
  {
    if |s| == 0 then 0 else (if p(s[0]) then 1 else 0) + CountWhere(s[1..], p)
  }

  /** `Array.prototype.filter`: the elements satisfying `keep`, in order. The
      subsequence of passing elements that is as long as their count is
      the one that keeps every one of them, each as often as it occurs. */
  function Filter<T>(s: seq<T>, keep: T -> bool): (r: seq<T>)
    ensures |r| == CountWhere(s, keep)
    ensures forall i :: 0 <= i < |r| ==> r[i] in s && keep(r[i])
    ensures forall i :: 0 <= i < |s| && keep(s[i]) ==> s[i] in r
    ensures Subsequence(r, s)
  {
    if |s| == 0 then []
    else if keep(s[0]) then [s[0]] + Filter(s[1..], keep)
    else Filter(s[1..], keep)
  }

  lemma ConcatAssoc<T>(x: seq<T>, y: seq<T>, z: seq<T>)
    ensures x + (y + z) == (x + y) + z
  {
  }

  /** A subsequence made of passing elements is no longer than their count. */
  lemma {:induction false} PassingSubsequenceBound<T>(r: seq<T>, s: seq<T>, keep: T -> bool)
    requires Subsequence(r, s)
    requires forall i :: 0 <= i < |r| ==> keep(r[i])
    ensures |r| <= CountWhere(s, keep)
    decreases |s|
  {
    if |r| > 0 {
      if r[0] == s[0] && Subsequence(r[1..], s[1..]) {
        PassingSubsequenceBound(r[1..], s[1..], keep);
      } else {
        PassingSubsequenceBound(r, s[1..], keep);
      }
    }
  }

  /** The filter is the only subsequence of passing elements as long as their
      count: its contract determines it. */
  lemma {:induction false} FilterUnique<T>(r: seq<T>, s: seq<T>, keep: T -> bool)
    requires Subsequence(r, s)
    requires forall i :: 0 <= i < |r| ==> keep(r[i])
    requires |r| == CountWhere(s, keep)
    ensures r == Filter(s, keep)
    decreases |s|
  {
    if |s| > 0 {
      if !keep(s[0]) {
        assert |r| > 0 ==> keep(r[0]);
        assert Subsequence(r, s[1..]);
        FilterUnique(r, s[1..], keep);
      } else if Subsequence(r, s[1..]) {
        PassingSubsequenceBound(r, s[1..], keep);
      } else {
        assert r[0] == s[0] && Subsequence(r[1..], s[1..]);
        FilterUnique(r[1..], s[1..], keep);
        assert r == [r[0]] + r[1..];
      }
    }
  }

  /** Filtering twice with the same predicate changes nothing the second time. */
  lemma {:induction false} FilterIdempotent<T>(s: seq<T>, keep: T -> bool)
    ensures Filter(Filter(s, keep), keep) == Filter(s, keep)
  {
    if |s| > 0 {
      FilterIdempotent(s[1..], keep);
      if keep(s[0]) {
        assert ([s[0]] + Filter(s[1..], keep))[1..] == Filter(s[1..], keep);
      }
    }
  }

  /** The test `y => y !== x`. */
  function Other<T(==)>(x: T): T -> bool {
    (y: T) => y != x
  }

  /** Every element is a copy of `x` or passes `Other(x)`. */
  lemma {:induction false} CountPlusOthers<T>(s: seq<T>, x: T)
    ensures CountWhere(s, Other(x)) + Count(s, x) == |s|
  {
    if |s| > 0 {
      CountPlusOthers(s[1..], x);
    }
  }

  /** `s.filter(y => y !== x)`: every copy of `x` dropped, the rest in order,
      one element fewer per copy. */
  function RemoveAll<T(==)>(s: seq<T>, x: T): (r: seq<T>)
    ensures x !in r
    ensures |r| + Count(s, x) == |s|
    ensures forall i :: 0 <= i < |r| ==> r[i] in s
    ensures forall i :: 0 <= i < |s| && s[i] != x ==> s[i] in r
    ensures Subsequence(r, s)
  {
    CountPlusOthers(s, x);
    Filter(s, Other(x))
  }

  /** Counting and removing on a list with a known first element. */
  lemma CountRemoveAllCons<T>(y: T, t: seq<T>, x: T)
    ensures Count([y] + t, x) == (if y == x then 1 else 0) + Count(t, x)
    ensures RemoveAll([y] + t, x) == if y == x then RemoveAll(t, x) else [y] + RemoveAll(t, x)
  {
    assert ([y] + t)[1..] == t;
  }

  /** Removing what is not there changes nothing. */
  lemma RemoveAllAbsent<T>(s: seq<T>, x: T)
    requires x !in s
    ensures RemoveAll(s, x) == s
  {
    FilterAllKept(s, Other(x));
  }

  /** Removing an element appended at the end removes nothing else. */
  lemma {:induction false} RemoveAllAppended<T>(s: seq<T>, x: T)
    ensures RemoveAll(s + [x], x) == RemoveAll(s, x)
    decreases |s|
  {
    if |s| == 0 {
      assert RemoveAll([x], x) == RemoveAll([x][1..], x);
    } else {
      assert (s + [x])[1..] == s[1..] + [x];
      RemoveAllAppended(s[1..], x);
    }
  }

  /** Filtering keeps everything when every element passes. */
  lemma {:induction false} FilterAllKept<T>(s: seq<T>, keep: T -> bool)
    requires forall i :: 0 <= i < |s| ==> keep(s[i])
    ensures Filter(s, keep) == s
  {
    if |s| > 0 {
      FilterAllKept(s[1..], keep);
    }
  }

  // ---------------------------------------------------------------------------
  // Decimal rendering of integers, as `${n}` and `n.toString()` produce it.

  predicate IsDigit(c: char) {
    '0' <= c <= '9'
  }

  function DigitChar(d: int): (c: char)
    requires 0 <= d < 10
    ensures IsDigit(c)
  {
    ['0', '1', '2', '3', '4', '5', '6', '7', '8', '9'][d]
  }

  function DigitValue(c: char): (d: int)
    requires IsDigit(c)
    ensures 0 <= d < 10
  {
    c as int - '0' as int
  }

  /** Decimal digits of `n`, most significant first, without leading zeros. */
  function NatToString(n: nat): (s: string)
    ensures |s| > 0
    ensures forall i :: 0 <= i < |s| ==> IsDigit(s[i])
    ensures s[0] == '0' <==> n == 0
    ensures s[0] == '0' ==> s == "0"
    decreases n
  {
    if n < 10 then [DigitChar(n)] else NatToString(n / 10) + [DigitChar(n % 10)]
  }

  /** JavaScript's rendering of an integral number: a minus sign for negatives,
      then digits with no leading zero (`"0"` for zero, never `"-0"`). */
  function IntToString(i: int): (s: string)
    ensures |s| > 0
    ensures forall k :: 0 <= k < |s| ==> IsDigit(s[k]) || s[k] == '-'
    ensures forall k :: 0 < k < |s| ==> IsDigit(s[k])
    ensures s[0] == '-' <==> i < 0
    ensures s[0] == '0' ==> s == "0"
    ensures i < 0 ==> |s| >= 2 && s[1] != '0'
  {
    if i < 0 then "-" + NatToString(-i) else NatToString(i)
  }

  predicate AllDigits(s: string) {
    forall i :: 0 <= i < |s| ==> IsDigit(s[i])
  }

  /** The value of a non-empty run of decimal digits. */
  function DigitsValue(s: string): (n: nat)
    requires |s| > 0 && AllDigits(s)
    decreases |s|
  {
    if |s| == 1 then DigitValue(s[0])
    else DigitsValue(s[..|s| - 1]) * 10 + DigitValue(s[|s| - 1])
  }

  /** Reads back an optionally signed decimal integer; anything else is `None`. */
  function ParseInt(s: string): Option<int> {
    if |s| > 0 && AllDigits(s) then Some(DigitsValue(s))
    else if |s| > 1 && s[0] == '-' && AllDigits(s[1..]) then Some(-(DigitsValue(s[1..]) as int))
    else None
  }

  lemma {:induction false} NatToStringRoundTrip(n: nat)
    ensures DigitsValue(NatToString(n)) == n
    decreases n
  {
    if n >= 10 {
      var s := NatToString(n);
      NatToStringRoundTrip(n / 10);
      assert s[..|s| - 1] == NatToString(n / 10);
    }
  }

  /** Reading back a rendered integer gives the integer. */
  lemma IntToStringRoundTrip(i: int)
    ensures ParseInt(IntToString(i)) == Some(i)
  {
    if i < 0 {
      NatToStringRoundTrip(-i);
      assert IntToString(i)[1..] == NatToString(-i);
    } else {
      NatToStringRoundTrip(i);
    }
  }

  /** Distinct integers render differently. */
  lemma IntToStringInjective(i: int, j: int)
    requires IntToString(i) == IntToString(j)
    ensures i == j
  {
    IntToStringRoundTrip(i);
    IntToStringRoundTrip(j);
  }

  // ---------------------------------------------------------------------------
  // Separator-delimited lists: `s.split(sep)` and `list.join(sep)` for a
  // one-character separator.

  /** `s.split(sep)`: never empty, and `"".split(sep) == [""]`. */
  function Split(s: string, sep: char): (r: seq<string>)
    ensures |r| >= 1
    ensures forall i :: 0 <= i < |r| ==> sep !in r[i]
    decreases |s|
  {
    if |s| == 0 then [""]
    else if s[0] == sep then [""] + Split(s[1..], sep)
    else
      var rest := Split(s[1..], sep);
      [[s[0]] + rest[0]] + rest[1..]
  }

  /** `list.join(sep)`; the empty list joins to the empty string. Every piece
      fits in the result, with a separator between each pair. */
  function Join(l: seq<string>, sep: char): (r: string)
    ensures |r| + 1 >= |l|
    ensures forall i :: 0 <= i < |l| ==> |l[i]| <= |r|
    decreases |l|
  {
    if |l| == 0 then ""
    else if |l| == 1 then l[0]
    else l[0] + [sep] + Join(l[1..], sep)
  }

  /** Joining the pieces of a split gives back the original string. */
  lemma {:induction false} JoinSplit(s: string, sep: char)
    ensures Join(Split(s, sep), sep) == s
    decreases |s|
  {
    if |s| > 0 {
      JoinSplit(s[1..], sep);
      var rest := Split(s[1..], sep);
      if s[0] != sep && |rest| > 1 {
        assert ([[s[0]] + rest[0]] + rest[1..])[1..] == rest[1..];
        assert Join(rest, sep) == rest[0] + [sep] + Join(rest[1..], sep);
      }
    }
  }

  /** Splitting a join of separator-free pieces gives back the pieces. */
  lemma {:induction false} SplitJoin(l: seq<string>, sep: char)
    requires |l| >= 1
    requires forall i :: 0 <= i < |l| ==> sep !in l[i]
    ensures Split(Join(l, sep), sep) == l
    decreases |l|, |l[0]|
  {
    if |l| == 1 {
      SplitNoSeparator(l[0], sep);
    } else {
      var j := Join(l[1..], sep);
      SplitJoin(l[1..], sep);
      SplitPrefix(l[0], [sep] + j, sep);
      assert ([sep] + j)[1..] == j;
      assert Join(l, sep) == l[0] + ([sep] + j);
      assert Split(Join(l, sep), sep) == [l[0]] + Split(j, sep);
      assert [l[0]] + l[1..] == l;
    }
  }

  /** A string without the separator splits into itself. */
  lemma {:induction false} SplitNoSeparator(s: string, sep: char)
    requires sep !in s
    ensures Split(s, sep) == [s]
    decreases |s|
  {
    if |s| > 0 {
      SplitNoSeparator(s[1..], sep);
      assert [s[0]] + s[1..] == s;
    }
  }

  /** A separator-free head becomes the first piece of what follows it. */
  lemma {:induction false} SplitPrefix(a: string, b: string, sep: char)
    requires sep !in a
    requires |b| > 0 && b[0] == sep
    ensures Split(a + b, sep) == [a] + Split(b[1..], sep)
    decreases |a|
  {
    if |a| == 0 {
      assert a + b == b;
    } else {
      assert (a + b)[1..] == a[1..] + b;
      SplitPrefix(a[1..], b, sep);
      assert [a[0]] + a[1..] == a;
    }
  }
}

=== FILE: create_post.dfy ===
/**
  The admin "create post" form: the slug derived from the title, the rule that
  keeps a hand-edited slug, and the submit handler's checks and outcome.
*/
module CreatePost {
  import opened Common

  // ---------------------------------------------------------------------------
  // Character classes of the two regular expressions in the slug generator.

  /** `\s` of JavaScript regular expressions. */
  predicate IsSpace(c: char) {
    || c == '\t' || c == '\n' || c == '\U{B}' || c == '\U{C}' || c == '\r' || c == ' '
    || c == '\U{A0}' || c == '\U{1680}' || ('\U{2000}' <= c <= '\U{200A}')
    || c == '\U{2028}' || c == '\U{2029}' || c == '\U{202F}' || c == '\U{205F}'
    || c == '\U{3000}' || c == '\U{FEFF}'
  }

  /** `\w` of JavaScript regular expressions without the `u` flag. */
  predicate IsWordChar(c: char) {
    ('a' <= c <= 'z') || ('A' <= c <= 'Z') || ('0' <= c <= '9') || c == '_'
  }

  /** The Arabic block U+0600..U+06FF, which holds the Persian letters. */
  predicate IsArabicBlock(c: char) {
    '\U{0600}' <= c <= '\U{06FF}'
  }

  /** Characters that survive the first replacement. */
  predicate IsKept(c: char) {
    IsWordChar(c) || IsArabicBlock(c) || IsSpace(c)
  }

  predicate NotSpace(c: char) {
    !IsSpace(c)
  }

  predicate IsUpperAscii(c: char) {
    'A' <= c <= 'Z'
  }

  /** ASCII lower-casing; every other character is left as it is. */
  function LowerChar(c: char): (r: char)
    ensures !IsUpperAscii(r)
    ensures IsWordChar(c) <==> IsWordChar(r)
    ensures IsArabicBlock(c) <==> IsArabicBlock(r)
    ensures IsSpace(c) <==> IsSpace(r)
  {
    if IsUpperAscii(c) then (c as int + 32) as char else c
  }

  function Lower(s: string): (r: string)
    ensures |r| == |s|
    ensures forall i :: 0 <= i < |s| ==> r[i] == LowerChar(s[i])
  {
    seq(|s|, i requires 0 <= i < |s| => LowerChar(s[i]))
  }

  /** The leading whitespace run of `s` removed. */
  function DropSpaces(s: string): (r: string)
    ensures |r| <= |s| && r == s[|s| - |r|..]
    ensures |r| > 0 ==> !IsSpace(r[0])
    ensures forall i :: 0 <= i < |s| - |r| ==> IsSpace(s[i])
  {
    if |s| > 0 && IsSpace(s[0]) then DropSpaces(s[1..]) else s
  }

  /** `.replace(/\s+/g, "-")`: each maximal whitespace run becomes one hyphen.
      `CollapseNoSpace`, `CollapseRun` and `CollapseAppend` below pin the
      result down; `CollapseCounts` counts what it writes. */
  function CollapseSpaces(s: string): (r: string)
    ensures |r| <= |s|
    ensures forall i :: 0 <= i < |r| ==> !IsSpace(r[i])
    decreases |s|
  {
    if |s| == 0 then ""
    else if IsSpace(s[0]) then "-" + CollapseSpaces(DropSpaces(s))
    else [s[0]] + CollapseSpaces(s[1..])
  }

  /** Text without whitespace is left as it is. */
  lemma {:induction false} CollapseNoSpace(a: string)
    requires forall i :: 0 <= i < |a| ==> !IsSpace(a[i])
    ensures CollapseSpaces(a) == a
    decreases |a|
  {
    if |a| > 0 {
      CollapseNoSpace(a[1..]);
      assert a == [a[0]] + a[1..];
    }
  }

  /** A whitespace run on its own becomes a single hyphen. */
  lemma CollapseRun(w: string)
    requires |w| > 0
    requires forall i :: 0 <= i < |w| ==> IsSpace(w[i])
    ensures CollapseSpaces(w) == "-"
  {
    assert DropSpaces(w) == [];
  }

  /** Dropping the leading run of `a + b`: the run stays inside `a` when `a`
      holds something else, and ends where `b` starts otherwise (provided `b`
      does not continue it). */
  lemma {:induction false} DropSpacesAppend(a: string, b: string)
    requires |DropSpaces(a)| == 0 ==> |b| == 0 || !IsSpace(b[0])
    ensures DropSpaces(a + b) == DropSpaces(a) + b
    decreases |a|
  {
    if |a| == 0 {
      assert a + b == b;
    } else if IsSpace(a[0]) {
      DropSpacesStep(a, b);
      DropSpacesAppend(a[1..], b);
    } else {
      assert (a + b)[0] == a[0];
    }
  }

  /** One step of `DropSpacesAppend` past a leading whitespace character. */
  lemma DropSpacesStep(a: string, b: string)
    requires |a| > 0 && IsSpace(a[0])
    ensures DropSpaces(a + b) == DropSpaces(a[1..] + b)
    ensures DropSpaces(a) == DropSpaces(a[1..])
  {
    assert (a + b)[0] == a[0];
    assert (a + b)[1..] == a[1..] + b;
  }

  /** Collapsing works piecewise on two parts that do not split a whitespace
      run: the result is the first part's collapse followed by the second's. */
  lemma {:induction false} CollapseAppend(a: string, b: string)
    requires |a| == 0 || |b| == 0 || !IsSpace(a[|a| - 1]) || !IsSpace(b[0])
    ensures CollapseSpaces(a + b) == CollapseSpaces(a) + CollapseSpaces(b)
    decreases |a|, 1
  {
    if |a| == 0 {
      assert a + b == b;
    } else if !IsSpace(a[0]) {
      CollapseWordStep(a, b);
      if |a| > 1 {
        assert a[1..][|a| - 2] == a[|a| - 1];
      }
      CollapseAppend(a[1..], b);
      ConcatAssoc([a[0]], CollapseSpaces(a[1..]), CollapseSpaces(b));
    } else {
      CollapseAppendRun(a, b);
    }
  }

  /** `CollapseAppend` when `a` starts with whitespace. */
  lemma {:induction false} CollapseAppendRun(a: string, b: string)
    requires |a| > 0 && IsSpace(a[0])
    requires |b| == 0 || !IsSpace(a[|a| - 1]) || !IsSpace(b[0])
    ensures CollapseSpaces(a + b) == CollapseSpaces(a) + CollapseSpaces(b)
    decreases |a|, 0
  {
    var d := DropSpaces(a);
    if |d| > 0 {
      assert d[|d| - 1] == a[|a| - 1];
    }
    CollapseRunStep(a, b);
    CollapseAppend(d, b);
    ConcatAssoc("-", CollapseSpaces(d), CollapseSpaces(b));
  }

  /** One step of `CollapseAppend` past a character that is not whitespace. */
  lemma CollapseWordStep(a: string, b: string)
    requires |a| > 0 && !IsSpace(a[0])
    ensures CollapseSpaces(a + b) == [a[0]] + CollapseSpaces(a[1..] + b)
    ensures CollapseSpaces(a) == [a[0]] + CollapseSpaces(a[1..])
  {
    var ab := a + b;
    assert ab[0] == a[0];
    assert ab[1..] == a[1..] + b;
  }

  /** One step of `CollapseAppend` past a leading whitespace run. */
  lemma CollapseRunStep(a: string, b: string)
    requires |a| > 0 && IsSpace(a[0])
    requires |DropSpaces(a)| == 0 ==> |b| == 0 || !IsSpace(b[0])
    ensures CollapseSpaces(a + b) == "-" + CollapseSpaces(DropSpaces(a) + b)
    ensures CollapseSpaces(a) == "-" + CollapseSpaces(DropSpaces(a))
  {
    var ab := a + b;
    assert ab[0] == a[0];
    DropSpacesAppend(a, b);
  }

  /** A word, a whitespace run and a rest that does not start with whitespace
      collapse to the word, one hyphen, and the collapsed rest. */
  lemma CollapseWordRun(a: string, w: string, b: string)
    requires forall i :: 0 <= i < |a| ==> !IsSpace(a[i])
    requires |w| > 0 && forall i :: 0 <= i < |w| ==> IsSpace(w[i])
    requires |b| == 0 || !IsSpace(b[0])
    ensures CollapseSpaces(a + w + b) == a + "-" + CollapseSpaces(b)
  {
    CollapseRun(w);
    CollapseAppend(w, b);
    ConcatAssoc(a, w, b);
    ConcatAssoc(a, "-", CollapseSpaces(b));
    if |a| > 0 {
      CollapseNoSpace(a);
      CollapseAppend(a, w + b);
    } else {
      assert a + (w + b) == w + b;
      assert a + ("-" + CollapseSpaces(b)) == "-" + CollapseSpaces(b);
    }
  }

  /** The slug of a title: lower-cased, stripped of everything but word
      characters, Arabic-block characters and whitespace, whitespace runs
      turned into hyphens. */
  function GenerateSlug(text: string): (r: string)
    ensures forall i :: 0 <= i < |r| ==> !IsSpace(r[i])
    ensures forall i :: 0 <= i < |r| ==> IsWordChar(r[i]) || IsArabicBlock(r[i]) || r[i] == '-'
    ensures forall i :: 0 <= i < |r| ==> !IsUpperAscii(r[i])
    ensures forall i :: 0 <= i < |r| - 1 ==> !(r[i] == '-' && r[i + 1] == '-')
  {
    var kept := Filter(Lower(text), IsKept);
    CollapseShape(kept);
    CollapseSpaces(kept)
  }

  /** What collapsing keeps: no whitespace, no doubled hyphen, and the other
      characters of the input. */
  lemma {:induction false} CollapseShape(s: string)
    requires forall i :: 0 <= i < |s| ==> IsKept(s[i]) && !IsUpperAscii(s[i])
    ensures var r := CollapseSpaces(s);
      && (forall i :: 0 <= i < |r| ==> (IsWordChar(r[i]) || IsArabicBlock(r[i]) || r[i] == '-') && !IsUpperAscii(r[i]))
      && (forall i :: 0 <= i < |r| - 1 ==> !(r[i] == '-' && r[i + 1] == '-'))
      && (|r| > 0 && r[0] == '-' ==> |s| > 0 && IsSpace(s[0]))
    decreases |s|
  {
    if |s| > 0 {
      if IsSpace(s[0]) {
        var d := DropSpaces(s);
        CollapseShape(d);
      } else {
        CollapseShape(s[1..]);
      }
    }
  }

  /** A title already made of lower-case kept characters is only collapsed. */
  lemma SlugOfClean(t: string)
    requires forall i :: 0 <= i < |t| ==> IsKept(t[i]) && !IsUpperAscii(t[i])
    ensures GenerateSlug(t) == CollapseSpaces(t)
  {
    assert Lower(t) == t;
    FilterAllKept(t, IsKept);
  }

  /** In the slug of a clean title, a word followed by a whitespace run is
      the word and one hyphen, then the slug of the rest. */
  lemma SlugWordRun(a: string, w: string, b: string)
    requires forall i :: 0 <= i < |a| ==> IsKept(a[i]) && !IsSpace(a[i]) && !IsUpperAscii(a[i])
    requires |w| > 0 && forall i :: 0 <= i < |w| ==> IsSpace(w[i])
    requires forall i :: 0 <= i < |b| ==> IsKept(b[i]) && !IsUpperAscii(b[i])
    requires |b| == 0 || !IsSpace(b[0])
    ensures GenerateSlug(a + w + b) == a + "-" + GenerateSlug(b)
  {
    var t := a + w + b;
    forall i | 0 <= i < |t| ensures IsKept(t[i]) && !IsUpperAscii(t[i]) {
      if i < |a| {
        assert t[i] == a[i];
      } else if i < |a| + |w| {
        assert t[i] == w[i - |a|];
      } else {
        assert t[i] == b[i - |a| - |w|];
      }
    }
    SlugOfClean(t);
    SlugOfClean(b);
    CollapseWordRun(a, w, b);
  }

  /** The number of maximal whitespace runs in `s`, counting a run that
      continues one before `s` only when `afterSpace` says `s` starts inside it. */
  function SpaceRuns(s: string, afterSpace: bool): nat
    decreases |s|
  {
    if |s| == 0 then 0
    else (if IsSpace(s[0]) && !afterSpace then 1 else 0) + SpaceRuns(s[1..], IsSpace(s[0]))
  }

  /** A run already under way contributes nothing more until it ends. */
  lemma {:induction false} SpaceRunsDrop(s: string)
    ensures SpaceRuns(s, true) == SpaceRuns(DropSpaces(s), true)
    ensures |DropSpaces(s)| > 0 ==> SpaceRuns(DropSpaces(s), true) == SpaceRuns(DropSpaces(s), false)
    decreases |s|
  {
    if |s| > 0 && IsSpace(s[0]) {
      SpaceRunsDrop(s[1..]);
    }
  }

  /** Collapsing writes one hyphen per whitespace run and otherwise keeps the
      non-space characters, in order. */
  lemma CollapseCounts(s: string)
    requires '-' !in s
    ensures Count(CollapseSpaces(s), '-') == SpaceRuns(s, false)
    ensures RemoveAll(CollapseSpaces(s), '-') == Filter(s, NotSpace)
  {
    CollapseHyphens(s);
    CollapseKeepsText(s);
  }

  /** The whitespace run at the start of `s` and what follows it. */
  lemma LeadingRun(s: string)
    requires |s| > 0 && IsSpace(s[0]) && '-' !in s
    ensures var d := DropSpaces(s);
      && '-' !in d && |d| < |s|
      && d == DropSpaces(s[1..])
      && Filter(s, NotSpace) == Filter(d, NotSpace)
  {
    var d := DropSpaces(s);
    var k := |s| - |d|;
    assert d == s[k..];
    assert '-' !in d by {
      forall i | 0 <= i < |d| ensures d[i] != '-' { assert d[i] == s[k + i]; }
    }
    FilterSpacePrefix(s, k);
  }

  /** Collapsing writes one hyphen per whitespace run. */
  lemma {:induction false} CollapseHyphens(s: string)
    requires '-' !in s
    ensures Count(CollapseSpaces(s), '-') == SpaceRuns(s, false)
    decreases |s|
  {
    if |s| > 0 {
      if IsSpace(s[0]) {
        var d := DropSpaces(s);
        LeadingRun(s);
        CollapseHyphens(d);
        SpaceRunsDrop(s[1..]);
        CountRemoveAllCons('-', CollapseSpaces(d), '-');
      } else {
        CollapseHyphens(s[1..]);
        CountRemoveAllCons(s[0], CollapseSpaces(s[1..]), '-');
        if |s[1..]| > 0 {
          SpaceRunsStart(s[1..]);
        }
      }
    }
  }

  /** Collapsing keeps the non-space characters, in order. */
  lemma {:induction false} CollapseKeepsText(s: string)
    requires '-' !in s
    ensures RemoveAll(CollapseSpaces(s), '-') == Filter(s, NotSpace)
    decreases |s|
  {
    if |s| > 0 {
      if IsSpace(s[0]) {
        var d := DropSpaces(s);
        LeadingRun(s);
        CollapseKeepsText(d);
        CountRemoveAllCons('-', CollapseSpaces(d), '-');
      } else {
        CollapseKeepsText(s[1..]);
        CountRemoveAllCons(s[0], CollapseSpaces(s[1..]), '-');
      }
    }
  }

  /** A run at the very start is counted once when nothing precedes it. */
  lemma SpaceRunsStart(s: string)
    requires |s| > 0
    ensures !IsSpace(s[0]) ==> SpaceRuns(s, true) == SpaceRuns(s, false)
  {
  }

  /** Dropping a leading run of whitespace does not change the non-space characters. */
  lemma {:induction false} FilterSpacePrefix(s: string, k: nat)
    requires k <= |s|
    requires forall i :: 0 <= i < k ==> IsSpace(s[i])
    ensures Filter(s, NotSpace) == Filter(s[k..], NotSpace)
    decreases k
  {
    if k > 0 {
      FilterSpacePrefix(s[1..], k - 1);
      assert s[1..][k - 1..] == s[k..];
    }
  }

  /** The slug holds one hyphen per whitespace run of the filtered title and,
      between them, exactly the filtered title's other characters. */
  lemma SlugMatchesTitle(text: string)
    ensures var kept := Filter(Lower(text), IsKept);
      && Count(GenerateSlug(text), '-') == SpaceRuns(kept, false)
      && RemoveAll(GenerateSlug(text), '-') == Filter(kept, NotSpace)
  {
    var kept := Filter(Lower(text), IsKept);
    assert '-' !in kept by {
      forall i | 0 <= i < |kept| ensures kept[i] != '-' { assert IsKept(kept[i]); }
    }
    CollapseCounts(kept);
  }

  // ---------------------------------------------------------------------------
  // Title and slug fields.

  datatype Draft = Draft(title: string, slug: string)

  /** The slug still follows the title: it is empty or what the title generates. */
  predicate SlugFollowsTitle(d: Draft) {
    d.slug == "" || d.slug == GenerateSlug(d.title)
  }

  /** Typing a new title regenerates the slug only while it still follows the
      old title; a hand-edited slug is left alone. */
  function ChangeTitle(d: Draft, newTitle: string): (r: Draft)
    ensures r.title == newTitle
    ensures SlugFollowsTitle(d) ==> r.slug == GenerateSlug(newTitle)
    ensures !SlugFollowsTitle(d) ==> r.slug == d.slug
  {
    if SlugFollowsTitle(d) then Draft(newTitle, GenerateSlug(newTitle)) else Draft(newTitle, d.slug)
  }

  /** Editing the slug field by hand. */
  function ChangeSlug(d: Draft, newSlug: string): (r: Draft)
    ensures r.title == d.title && r.slug == newSlug
  {
    d.(slug := newSlug)
  }

  /** A slug typed by hand that is not the title's own slug survives the next
      title edit; one equal to the title's slug is taken over again. */
  lemma ManualEditSticks(d: Draft, typed: string, newTitle: string)
    ensures typed != "" && typed != GenerateSlug(d.title) ==>
      ChangeTitle(ChangeSlug(d, typed), newTitle).slug == typed
    ensures typed == "" || typed == GenerateSlug(d.title) ==>
      ChangeTitle(ChangeSlug(d, typed), newTitle).slug == GenerateSlug(newTitle)
  {
  }

  /** A sequence of title edits. */
  function TypeTitles(d: Draft, titles: seq<string>): Draft
    decreases |titles|
  {
    if |titles| == 0 then d else TypeTitles(ChangeTitle(d, titles[0]), titles[1..])
  }

  /** Once the slug follows the title, it keeps following it through any
      sequence of title edits. */
  lemma {:induction false} SlugKeepsFollowing(d: Draft, titles: seq<string>)
    requires SlugFollowsTitle(d)
    ensures SlugFollowsTitle(TypeTitles(d, titles))
    ensures |titles| > 0 ==> TypeTitles(d, titles).slug == GenerateSlug(titles[|titles| - 1])
    decreases |titles|
  {
    if |titles| > 0 {
      var next := ChangeTitle(d, titles[0]);
      SlugKeepsFollowing(next, titles[1..]);
      if |titles| > 1 {
        assert titles[1..][|titles[1..]| - 1] == titles[|titles| - 1];
      }
    }
  }

  /** A hand-edited slug survives every title edit so long as no title it is
      typed over (the one before each edit) generates that very slug. */
  lemma {:induction false} ManualSlugKept(d: Draft, titles: seq<string>)
    requires d.slug != ""
    requires |titles| > 0 ==> d.slug != GenerateSlug(d.title)
    requires forall i :: 0 <= i < |titles| - 1 ==> GenerateSlug(titles[i]) != d.slug
    ensures TypeTitles(d, titles).slug == d.slug
    decreases |titles|
  {
    if |titles| > 0 {
      ManualSlugKept(ChangeTitle(d, titles[0]), titles[1..]);
    }
  }

  // ---------------------------------------------------------------------------
  // Submitting the form.

  const TitleRequired := "لطفا عنوان مقاله را وارد کنید"
  const EditorBroken := "مشکلی در ویرایشگر متن وجود دارد"
  const ContentRequired := "لطفا متن مقاله را وارد کنید"
  const CreateFailed := "خطا در ایجاد مقاله"
  const SomethingWentWrong := "خطایی رخ داد. لطفا دوباره تلاش کنید"
  const ListPath := "/admin/blog"

  datatype Form = Form(title: string, slug: string, excerpt: string, coverImage: string, published: bool)

  /** The rich-text editor: not yet mounted, or mounted with its current HTML. */
  datatype EditorRef = NoEditor | Editor(content: string)

  /** The body posted to create the article. */
  datatype CreateRequest = CreateRequest(
    title: string, slug: string, content: string, excerpt: string, coverImage: string, published: bool)

  /** A thrown value: an `Error` with its message, or anything else. */
  datatype Thrown = ErrorValue(message: string) | OtherValue

  /** How the request ended: a response whose JSON body was read (with its
      `error` field, if any), or an exception from the request or body. */
  datatype CreateResponse = Responded(ok: bool, errorField: Option<string>) | Raised(thrown: Thrown)

  /** Form state after submitting: the request sent (if any), the message
      shown, the loading flag, and where the page navigated (if anywhere). */
  datatype SubmitResult = SubmitResult(request: Option<CreateRequest>, error: string, loading: bool, navigateTo: Option<string>)

  predicate Succeeded(resp: CreateResponse) {
    resp.Responded? && resp.ok
  }

  /** The message a failed request leaves on the form. */
  function FailureMessage(resp: CreateResponse): (m: string)
    requires !Succeeded(resp)
    ensures resp.Responded? ==> m != ""
    ensures resp.Responded? && resp.errorField.Some? && resp.errorField.value != "" ==> m == resp.errorField.value
    ensures resp.Responded? && (resp.errorField.None? || resp.errorField.value == "") ==> m == CreateFailed
    ensures resp.Raised? && resp.thrown.ErrorValue? ==> m == resp.thrown.message
    ensures resp == Raised(OtherValue) ==> m == SomethingWentWrong
  {
    match resp
    case Responded(_, field) => if field.Some? && field.value != "" then field.value else CreateFailed
    case Raised(ErrorValue(message)) => message
    case Raised(OtherValue) => SomethingWentWrong
  }

  /** The submit handler: three checks in order, each stopping before any
      request; then one request whose outcome either navigates back to the
      list or leaves an error message, with loading cleared either way. */
  function Submit(form: Form, editor: EditorRef, loading: bool,
                  respond: CreateRequest -> CreateResponse): (r: SubmitResult)
    ensures r.request.Some? <==> form.title != "" && editor.Editor? && editor.content != ""
    ensures form.title == "" ==> r.error == TitleRequired
    ensures form.title != "" && editor.NoEditor? ==> r.error == EditorBroken
    ensures form.title != "" && editor.Editor? && editor.content == "" ==> r.error == ContentRequired
    ensures r.request.None? ==> r.loading == loading && r.navigateTo.None?
    ensures r.request.Some? ==> !r.loading
    ensures r.request.Some? ==>
      r.request.value == CreateRequest(form.title, form.slug, editor.content, form.excerpt, form.coverImage, form.published)
    ensures r.request.Some? && Succeeded(respond(r.request.value)) ==> r.navigateTo == Some(ListPath) && r.error == ""
    ensures r.request.Some? && respond(r.request.value).Responded? && !respond(r.request.value).ok ==>
      r.navigateTo.None? && r.error != ""
    ensures r.request.Some? && !Succeeded(respond(r.request.value)) ==>
      r.navigateTo.None? && r.error == FailureMessage(respond(r.request.value))
    ensures r.navigateTo.Some? ==> r.request.Some? && Succeeded(respond(r.request.value))
  {
    if form.title == "" then SubmitResult(None, TitleRequired, loading, None)
    else if editor.NoEditor? then SubmitResult(None, EditorBroken, loading, None)
    else if editor.content == "" then SubmitResult(None, ContentRequired, loading, None)
    else
      var req := CreateRequest(form.title, form.slug, editor.content, form.excerpt, form.coverImage, form.published);
      var resp := respond(req);
      if Succeeded(resp) then SubmitResult(Some(req), "", false, Some(ListPath))
      else SubmitResult(Some(req), FailureMessage(resp), false, None)
  }
}

=== FILE: image_url.dfy ===
/**
  Joining an image path from the content API onto the public API base URL
  taken from the environment.
*/
module ImageUrl {
  import opened Common

  /** What string concatenation makes of an unset environment variable. */
  const UnsetBase := "undefined"

  predicate EndsWithSlash(s: string) {
    |s| > 0 && s[|s| - 1] == '/'
  }

  /** The text placed before a non-empty path: the base itself when it ends in
      a slash, otherwise the base (or `"undefined"` when unset) and a slash. */
  function Prefix(base: Option<string>): (p: string)
    ensures EndsWithSlash(p)
    ensures base.Some? && EndsWithSlash(base.value) ==> p == base.value
    ensures base.Some? && !EndsWithSlash(base.value) ==> p == base.value + "/"
    ensures base.None? ==> p == UnsetBase + "/"
  {
    match base
    case Some(b) => if EndsWithSlash(b) then b else b + "/"
    case None => UnsetBase + "/"
  }

  /** The image URL: empty for a missing or empty path, otherwise the prefix
      followed by the path, so that exactly one slash joins a base without one. */
  function ParseImageUrl(base: Option<string>, url: Option<string>): (r: string)
    ensures url.None? || url.value == "" ==> r == ""
    ensures url.Some? && url.value != "" ==> r == Prefix(base) + url.value
  {
    match url
    case None => ""
    case Some(u) => if u == "" then "" else Prefix(base) + u
  }

  /** A non-empty path ends the URL, right after a slash, and the URL is empty
      only for an empty path. */
  lemma ImageUrlShape(base: Option<string>, url: Option<string>)
    ensures var r := ParseImageUrl(base, url);
      && (r == "" <==> url.None? || url.value == "")
      && (url.Some? && url.value != "" ==>
            |r| > |url.value| && r[|r| - |url.value|..] == url.value && r[|r| - |url.value| - 1] == '/')
  {
    if url.Some? && url.value != "" {
      var p := Prefix(base);
      var r := p + url.value;
      assert r[|r| - |url.value|..] == url.value;
      assert r[|r| - |url.value| - 1] == p[|p| - 1];
    }
  }
}

=== FILE: news_section.dfy ===
/**
  The home page's news block: the first post is shown large, the next (at
  most) three as cards, and the third card's title is highlighted.
*/
module NewsSection {
  import opened Common
  import PostsApi
  import ImageUrl

  const SupportingCount := 3
  const HighlightedIndex := 2

  /** A supporting card: the post, its image source and whether its title
      carries the highlight colour. */
  datatype Card = Card(post: PostsApi.Post, image: string, highlighted: bool)

  datatype Layout = Layout(main: PostsApi.Post, mainImage: string, supporting: seq<Card>)

  /** `parseImageURL(leadPicture) || ""`: the joined URL, which is already ""
      for an empty picture. */
  function ImageOf(base: Option<string>, post: PostsApi.Post): (r: string)
    ensures post.leadPicture == "" <==> r == ""
  {
    ImageUrl.ImageUrlShape(base, Some(post.leadPicture));
    ImageUrl.ParseImageUrl(base, Some(post.leadPicture))
  }

  /** The block: nothing for a missing or empty list; otherwise the first post
      as the main story and `slice(1, 4)` as cards, each with its post's image. */
  function Render(posts: Option<seq<PostsApi.Post>>, base: Option<string>): (r: Option<Layout>)
    ensures r.None? <==> posts.None? || |posts.value| == 0
    ensures r.Some? ==> r.value.main == posts.value[0] && r.value.mainImage == ImageOf(base, posts.value[0])
    ensures r.Some? ==> |r.value.supporting| == Min(SupportingCount, |posts.value| - 1)
    ensures r.Some? ==> forall i :: 0 <= i < |r.value.supporting| ==>
      && r.value.supporting[i].post == posts.value[i + 1]
      && r.value.supporting[i].image == ImageOf(base, posts.value[i + 1])
      && (r.value.supporting[i].highlighted <==> i == HighlightedIndex)
  {
    if posts.None? || |posts.value| == 0 then None
    else
      var ps := posts.value;
      var rest := ps[1..Min(1 + SupportingCount, |ps|)];
      Some(Layout(ps[0], ImageOf(base, ps[0]),
        seq(|rest|, i requires 0 <= i < |rest| => Card(rest[i], ImageOf(base, rest[i]), i == HighlightedIndex))))
  }

  /** The posts the block shows, in order: the main post then the cards'. */
  function Shown(l: Layout): (r: seq<PostsApi.Post>)
    ensures |r| == 1 + |l.supporting|
    ensures r[0] == l.main
    ensures forall i :: 0 <= i < |l.supporting| ==> r[i + 1] == l.supporting[i].post
  {
    [l.main] + seq(|l.supporting|, i requires 0 <= i < |l.supporting| => l.supporting[i].post)
  }

  /** The block shows exactly the first `min(4, n)` posts, in order, each once:
      the main post is never repeated among the cards, and nothing past the
      fourth post appears. */
  lemma RenderIsPrefix(posts: seq<PostsApi.Post>, base: Option<string>)
    requires |posts| > 0
    ensures var r := Render(Some(posts), base);
      r.Some? && Shown(r.value) == posts[..Min(1 + SupportingCount, |posts|)]
  {
    var r := Render(Some(posts), base).value;
    var s := Shown(r);
    var p := posts[..Min(1 + SupportingCount, |posts|)];
    assert |s| == |p|;
    forall i | 0 <= i < |s| ensures s[i] == p[i] {
      if i > 0 {
        assert s[i] == r.supporting[i - 1].post;
      }
    }
  }

  /** A highlighted card exists exactly when there are at least four posts,
      and then it shows the fourth. */
  lemma HighlightIffFourPosts(posts: seq<PostsApi.Post>, base: Option<string>)
    requires |posts| > 0
    ensures var r := Render(Some(posts), base).value;
      && ((exists i :: 0 <= i < |r.supporting| && r.supporting[i].highlighted) <==> |posts| >= 4)
      && (|posts| >= 4 ==> r.supporting[HighlightedIndex].post == posts[3])
  {
    var r := Render(Some(posts), base).value;
    if |posts| >= 4 {
      assert r.supporting[HighlightedIndex].highlighted;
    }
  }
}

=== FILE: pagination.dfy ===
/**
  The blog listing's pagination control: from the current page and the page
  count it derives a window of at most three numbered links, explicit links to
  the first and last pages with ellipsis markers over the gaps, previous/next
  arrows, and the one active page. Every link's target is the current query
  with only `page` replaced.
*/
module Pagination {
  import opened Common

  /** The numbered window `[start, end]`. */
  datatype Window = Window(start: int, end: int)

  /** One element of the rendered control, left to right. */
  datatype Item =
    | Prev(target: int)
    | PageLink(page: int, active: bool)
    | Ellipsis
    | Next(target: int)

  /** The window calculation. The source does not check that `current` lies in
      `[1, total]`, so neither does this function; it is rendered only when
      `total >= 2`. */
  function PageWindow(current: int, total: int): (w: Window)
    ensures total >= 2 ==> 1 <= w.start <= w.end <= total
    ensures total >= 2 ==> w.end - w.start + 1 == Min(3, total)
    ensures 1 <= current <= total ==> w.start <= current <= w.end
    // Closed form: the window starts one page before `current`, pushed back
    // inside `[1, total]` when that would run past either end.
    ensures total >= 2 ==> w.start == Max(1, Min(current - 1, total - 2))
  {
    var first := Max(1, current - 1);
    var end := Min(total, first + 2);
    var start := if end - first < 2 then Max(1, end - 2) else first;
    Window(start, end)
  }

  /** The numbered links of the window, the one equal to `current` active. */
  function WindowLinks(start: int, end: int, current: int): (r: seq<Item>)
    requires start <= end + 1
    ensures |r| == end - start + 1
    ensures forall i :: 0 <= i < |r| ==> r[i] == PageLink(start + i, start + i == current)
  {
    seq(end - start + 1, i => PageLink(start + i, start + i == current))
  }

  /** The first-page link and leading ellipsis that precede the window. */
  function LeadingLinks(start: int): seq<Item> {
    if start > 1 then [PageLink(1, false)] + (if start > 2 then [Ellipsis] else [])
    else []
  }

  /** The trailing ellipsis and last-page link that follow the window. */
  function TrailingLinks(end: int, total: int): seq<Item> {
    if end < total then (if end < total - 1 then [Ellipsis] else []) + [PageLink(total, false)]
    else []
  }

  /** The numbered part of the control, without the arrows: the window's
      links and at most four edge elements (two links, two ellipses). */
  function Strip(current: int, total: int): (r: seq<Item>)
    requires total >= 2
    ensures Min(3, total) <= |r| <= Min(3, total) + 4
  {
    var w := PageWindow(current, total);
    LeadingLinks(w.start) + WindowLinks(w.start, w.end, current) + TrailingLinks(w.end, total)
  }

  /** The whole control: empty exactly when there is at most one page, and
      never more than nine elements (two arrows, the numbered part). */
  function Render(current: int, total: int): (r: seq<Item>)
    ensures r == [] <==> total <= 1
    ensures |r| <= 9
  {
    if total <= 1 then []
    else
      (if current > 1 then [Prev(current - 1)] else [])
      + Strip(current, total)
      + (if current < total then [Next(current + 1)] else [])
  }

  /** The link target: the current query with `page` set and nothing else changed. */
  function PageUrl(params: Params, page: int): (r: Params)
    ensures r.Keys == params.Keys + {"page"}
    ensures forall k :: k in params && k != "page" ==> r[k] == params[k]
    ensures ParseInt(r["page"]) == Some(page)
  {
    IntToStringRoundTrip(page);
    params["page" := IntToString(page)]
  }

  // ---------------------------------------------------------------------------
  // Shape of the rendered control.

  /** Consecutive elements of the numbered part: a link is followed by the next
      page's link, or an ellipsis stands between two links over a real gap. */
  ghost predicate GapsMarked(s: seq<Item>)
  {
    && (forall i :: 0 <= i < |s| ==> s[i].PageLink? || s[i].Ellipsis?)
    && (forall i :: 0 <= i < |s| - 1 && s[i].PageLink? && s[i + 1].PageLink? ==>
          s[i + 1].page == s[i].page + 1)
    && (forall i :: 0 <= i < |s| && s[i].Ellipsis? ==>
          && 0 < i < |s| - 1
          && s[i - 1].PageLink? && s[i + 1].PageLink?
          && s[i + 1].page > s[i - 1].page + 1)
  }

  /** Page numbers of the links in `s`, left to right. */
  function Pages(s: seq<Item>): seq<int> {
    if |s| == 0 then []
    else (if s[0].PageLink? then [s[0].page] else []) + Pages(s[1..])
  }

  function CountActive(s: seq<Item>): nat {
    if |s| == 0 then 0
    else (if s[0].PageLink? && s[0].active then 1 else 0) + CountActive(s[1..])
  }

  function CountEllipses(s: seq<Item>): nat {
    if |s| == 0 then 0
    else (if s[0].Ellipsis? then 1 else 0) + CountEllipses(s[1..])
  }

  /** The pages `start..end`, in order. */
  function Range(start: int, end: int): (r: seq<int>)
    requires start <= end + 1
    ensures |r| == end - start + 1
    ensures forall i :: 0 <= i < |r| ==> r[i] == start + i
    decreases end - start + 1
  {
    if start > end then [] else [start] + Range(start + 1, end)
  }

  ghost predicate StrictlyIncreasing(p: seq<int>) {
    forall i, j :: 0 <= i < j < |p| ==> p[i] < p[j]
  }

  lemma {:induction false} PagesAppend(a: seq<Item>, b: seq<Item>)
    ensures Pages(a + b) == Pages(a) + Pages(b)
    ensures CountActive(a + b) == CountActive(a) + CountActive(b)
    ensures CountEllipses(a + b) == CountEllipses(a) + CountEllipses(b)
    decreases |a|
  {
    if |a| == 0 {
      assert a + b == b;
    } else {
      assert (a + b)[0] == a[0];
      assert (a + b)[1..] == a[1..] + b;
      PagesAppend(a[1..], b);
      var h: seq<int> := if a[0].PageLink? then [a[0].page] else [];
      assert Pages(a + b) == h + (Pages(a[1..]) + Pages(b));
      assert Pages(a) == h + Pages(a[1..]);
    }
  }

  /** The window's links are the pages `start..end` in order; one is active
      exactly when `current` is among them. */
  lemma {:induction false} WindowLinksFacts(start: int, end: int, current: int)
    requires start <= end + 1
    ensures Pages(WindowLinks(start, end, current)) == Range(start, end)
    ensures CountActive(WindowLinks(start, end, current)) == if start <= current <= end then 1 else 0
    ensures CountEllipses(WindowLinks(start, end, current)) == 0
    decreases end - start + 1
  {
    var w := WindowLinks(start, end, current);
    if start <= end {
      WindowLinksFacts(start + 1, end, current);
      assert w[1..] == WindowLinks(start + 1, end, current);
    }
  }

  lemma LeadingFacts(start: int)
    ensures Pages(LeadingLinks(start)) == if start > 1 then [1] else []
    ensures CountActive(LeadingLinks(start)) == 0
    ensures CountEllipses(LeadingLinks(start)) == if start > 2 then 1 else 0
  {
    if start > 2 {
      PagesAppend([PageLink(1, false)], [Ellipsis]);
      assert LeadingLinks(start) == [PageLink(1, false)] + [Ellipsis];
    }
  }

  lemma TrailingFacts(end: int, total: int)
    ensures Pages(TrailingLinks(end, total)) == if end < total then [total] else []
    ensures CountActive(TrailingLinks(end, total)) == 0
    ensures CountEllipses(TrailingLinks(end, total)) == if end < total - 1 then 1 else 0
  {
    if end < total - 1 {
      PagesAppend([Ellipsis], [PageLink(total, false)]);
      assert TrailingLinks(end, total) == [Ellipsis] + [PageLink(total, false)];
    }
  }

  /** The numbered part starts at page 1 and ends at the last page; its links
      lie in `[1, total]`, and a link is active exactly when it is `current`. */
  lemma StripItems(current: int, total: int)
    requires total >= 2
    ensures var s := Strip(current, total);
      && |s| > 0
      && s[0] == PageLink(1, 1 == current)
      && s[|s| - 1] == PageLink(total, total == current)
      && (forall i :: 0 <= i < |s| ==> s[i].PageLink? || s[i].Ellipsis?)
      && (forall i :: 0 <= i < |s| && s[i].PageLink? ==>
            1 <= s[i].page <= total && (s[i].active <==> s[i].page == current))
  {
    var w := PageWindow(current, total);
    var L := LeadingLinks(w.start);
    var W := WindowLinks(w.start, w.end, current);
    var T := TrailingLinks(w.end, total);
    var s := L + W + T;
    assert s == Strip(current, total);
    forall i | 0 <= i < |s|
      ensures s[i].PageLink? || s[i].Ellipsis?
      ensures s[i].PageLink? ==> 1 <= s[i].page <= total && (s[i].active <==> s[i].page == current)
    {
      if i < |L| {
        assert s[i] == L[i];
      } else if i >= |L| + |W| {
        assert s[i] == T[i - |L| - |W|];
      }
    }
    if |L| == 0 { assert s[0] == W[0]; }
    if |T| == 0 { assert s[|s| - 1] == W[|W| - 1]; }
  }

  /** Consecutive links in the numbered part are consecutive pages. */
  lemma StripLinksConsecutive(current: int, total: int)
    requires total >= 2
    ensures var s := Strip(current, total);
      forall i :: 0 <= i < |s| - 1 && s[i].PageLink? && s[i + 1].PageLink? ==>
        s[i + 1].page == s[i].page + 1
  {
    var w := PageWindow(current, total);
    var L := LeadingLinks(w.start);
    var W := WindowLinks(w.start, w.end, current);
    var T := TrailingLinks(w.end, total);
    var s := L + W + T;
    assert s == Strip(current, total);
    assert |W| >= 2;
    forall i | 0 <= i < |s| - 1 && s[i].PageLink? && s[i + 1].PageLink?
      ensures s[i + 1].page == s[i].page + 1
    {
      if i + 1 < |L| {
      } else if i + 1 == |L| {
        assert s[i] == L[i] && s[i + 1] == W[0];
      } else if i + 1 < |L| + |W| {
        assert s[i] == W[i - |L|] && s[i + 1] == W[i + 1 - |L|];
      } else if i + 1 == |L| + |W| {
        assert s[i] == W[|W| - 1] && s[i + 1] == T[0];
      }
    }
  }

  /** Every ellipsis in the numbered part stands between two links with a
      real gap between them. */
  lemma StripEllipsesBetween(current: int, total: int)
    requires total >= 2
    ensures var s := Strip(current, total);
      forall i :: 0 <= i < |s| && s[i].Ellipsis? ==>
        && 0 < i < |s| - 1
        && s[i - 1].PageLink? && s[i + 1].PageLink?
        && s[i + 1].page > s[i - 1].page + 1
  {
    var w := PageWindow(current, total);
    var L := LeadingLinks(w.start);
    var W := WindowLinks(w.start, w.end, current);
    var T := TrailingLinks(w.end, total);
    var s := L + W + T;
    assert s == Strip(current, total);
    assert |W| >= 2;
    forall i | 0 <= i < |s| && s[i].Ellipsis?
      ensures 0 < i < |s| - 1
      ensures s[i - 1].PageLink? && s[i + 1].PageLink?
      ensures s[i + 1].page > s[i - 1].page + 1
    {
      if i < |L| {
        assert s[i] == L[i];
        assert i == 1 && s[0] == PageLink(1, false) && s[2] == W[0];
      } else if i >= |L| + |W| {
        assert s[i] == T[i - |L| - |W|];
        assert i - |L| - |W| == 0 && s[i - 1] == W[|W| - 1] && s[i + 1] == T[1];
      }
    }
  }

  /** Consecutive links in the numbered part are consecutive pages, and every
      ellipsis stands between two links with a real gap between them. */
  lemma StripGapsMarked(current: int, total: int)
    requires total >= 2
    ensures GapsMarked(Strip(current, total))
  {
    StripItems(current, total);
    StripLinksConsecutive(current, total);
    StripEllipsesBetween(current, total);
  }

  /** A previous arrow is the first element exactly when `current > 1`, a next
      arrow the last exactly when `current < total`; arrows appear nowhere else. */
  lemma RenderArrows(current: int, total: int)
    requires total >= 2
    ensures var r := Render(current, total);
      && |r| > 0
      && ((exists i :: 0 <= i < |r| && r[i].Prev?) <==> current > 1)
      && ((exists i :: 0 <= i < |r| && r[i].Next?) <==> current < total)
      && (current > 1 ==> r[0] == Prev(current - 1))
      && (current < total ==> r[|r| - 1] == Next(current + 1))
  {
    var r := Render(current, total);
    var s := Strip(current, total);
    StripItems(current, total);
    var P: seq<Item> := if current > 1 then [Prev(current - 1)] else [];
    var N: seq<Item> := if current < total then [Next(current + 1)] else [];
    assert r == P + s + N;
    forall i | 0 <= i < |r|
      ensures r[i].Prev? ==> current > 1 && i == 0
      ensures r[i].Next? ==> current < total && i == |r| - 1
    {
      if i < |P| {
      } else if i < |P| + |s| {
        assert r[i] == s[i - |P|];
      } else {
      }
    }
    if current > 1 { assert r[0].Prev?; }
    if current < total { assert r[|r| - 1].Next?; }
  }

  /** The numbered part lists page 1 when the window misses it, the window,
      and the last page when the window misses it. */
  lemma StripPageList(current: int, total: int)
    requires total >= 2
    ensures var w := PageWindow(current, total);
      && Pages(Strip(current, total))
           == (if w.start > 1 then [1] else []) + Range(w.start, w.end)
              + (if w.end < total then [total] else [])
      && CountActive(Strip(current, total)) == (if w.start <= current <= w.end then 1 else 0)
      && CountEllipses(Strip(current, total))
           == (if w.start > 2 then 1 else 0) + (if w.end < total - 1 then 1 else 0)
  {
    var w := PageWindow(current, total);
    var L := LeadingLinks(w.start);
    var W := WindowLinks(w.start, w.end, current);
    var T := TrailingLinks(w.end, total);
    WindowLinksFacts(w.start, w.end, current);
    LeadingFacts(w.start);
    TrailingFacts(w.end, total);
    PagesAppend(L, W);
    PagesAppend(L + W, T);
  }

  /** The arrows carry no page number, no active flag and no ellipsis. */
  lemma RenderCountsAsStrip(current: int, total: int)
    requires total >= 2
    ensures Pages(Render(current, total)) == Pages(Strip(current, total))
    ensures CountActive(Render(current, total)) == CountActive(Strip(current, total))
    ensures CountEllipses(Render(current, total)) == CountEllipses(Strip(current, total))
  {
    var s := Strip(current, total);
    var P: seq<Item> := if current > 1 then [Prev(current - 1)] else [];
    var N: seq<Item> := if current < total then [Next(current + 1)] else [];
    PagesAppend(P, s);
    PagesAppend(P + s, N);
    assert Render(current, total) == P + s + N;
  }

  /** The page list of a window `[start, end]` inside `[1, total]` with the
      edge pages it misses added: increasing, within `[1, total]`, from 1 to
      `total`. */
  function EdgedRange(start: int, end: int, total: int): seq<int>
    requires start <= end + 1
  {
    (if start > 1 then [1] else []) + Range(start, end) + (if end < total then [total] else [])
  }

  lemma EdgedRangeShape(start: int, end: int, total: int)
    requires 1 <= start <= end <= total
    ensures var p := EdgedRange(start, end, total);
      && |p| == end - start + 1 + (if start > 1 then 1 else 0) + (if end < total then 1 else 0)
      && p[0] == 1 && p[|p| - 1] == total
      && (forall i :: 0 <= i < |p| ==> 1 <= p[i] <= total)
      && StrictlyIncreasing(p)
  {
    var A: seq<int> := if start > 1 then [1] else [];
    var R := Range(start, end);
    var B: seq<int> := if end < total then [total] else [];
    var p := A + R + B;
    assert p == EdgedRange(start, end, total);
    forall i | 0 <= i < |p|
      ensures p[i] == if i < |A| then 1 else if i < |A| + |R| then start + i - |A| else total
    {
      if i < |A| {
        assert p[i] == A[i];
      } else if i < |A| + |R| {
        assert p[i] == R[i - |A|];
      } else {
        assert p[i] == B[i - |A| - |R|];
      }
    }
  }

  /** Page numbers shown are distinct, increasing, within `[1, total]`, begin
      at 1 and end at `total`; there are `min(3, total)` window links plus the
      edge links the window misses. */
  lemma RenderPages(current: int, total: int)
    requires total >= 2
    ensures var p := Pages(Render(current, total));
      var w := PageWindow(current, total);
      && |p| > 0 && p[0] == 1 && p[|p| - 1] == total
      && (forall i :: 0 <= i < |p| ==> 1 <= p[i] <= total)
      && StrictlyIncreasing(p)
      && |p| == Min(3, total) + (if w.start > 1 then 1 else 0) + (if w.end < total then 1 else 0)
  {
    StripPageList(current, total);
    RenderCountsAsStrip(current, total);
    var w := PageWindow(current, total);
    assert Pages(Render(current, total)) == EdgedRange(w.start, w.end, total);
    EdgedRangeShape(w.start, w.end, total);
  }

  /** Exactly one link is active, the current page, when that page exists;
      otherwise none is. */
  lemma RenderActive(current: int, total: int)
    requires total >= 2
    ensures CountActive(Render(current, total)) == if 1 <= current <= total then 1 else 0
  {
    StripPageList(current, total);
    RenderCountsAsStrip(current, total);
  }

  /** A leading ellipsis is shown exactly when the window starts after page 2,
      a trailing one exactly when it ends before page `total - 1`. */
  lemma RenderEllipses(current: int, total: int)
    requires total >= 2
    ensures var w := PageWindow(current, total);
      var s := Strip(current, total);
      && |s| >= 2
      && CountEllipses(Render(current, total))
           == (if w.start > 2 then 1 else 0) + (if w.end < total - 1 then 1 else 0)
      && (s[1].Ellipsis? <==> w.start > 2)
      && (s[|s| - 2].Ellipsis? <==> w.end < total - 1)
  {
    StripPageList(current, total);
    RenderCountsAsStrip(current, total);
    var w := PageWindow(current, total);
    var L := LeadingLinks(w.start);
    var W := WindowLinks(w.start, w.end, current);
    var T := TrailingLinks(w.end, total);
    var s := L + W + T;
    assert s == Strip(current, total);
    assert |W| >= 2;
    if w.start > 2 { assert s[1] == L[1]; }
    else if w.start > 1 { assert s[1] == W[0]; }
    else { assert s[1] == W[1]; }
    if w.end < total - 1 { assert s[|s| - 2] == T[0]; }
    else if w.end < total { assert s[|s| - 2] == W[|W| - 1]; }
    else { assert s[|s| - 2] == W[|W| - 2]; }
  }

  /** Ten pages, on the first: the window 1..3, a gap, the last page, and the
      next arrow. */
  lemma FirstOfTen()
    ensures Render(1, 10) ==
      [PageLink(1, true), PageLink(2, false), PageLink(3, false), Ellipsis, PageLink(10, false), Next(2)]
  {
    assert PageWindow(1, 10) == Window(1, 3);
    assert WindowLinks(1, 3, 1) == [PageLink(1, true), PageLink(2, false), PageLink(3, false)];
  }

  /** Ten pages, on the last: the previous arrow, the first page, a gap, and
      the window 8..10. */
  lemma LastOfTen()
    ensures Render(10, 10) ==
      [Prev(9), PageLink(1, false), Ellipsis, PageLink(8, false), PageLink(9, false), PageLink(10, true)]
  {
    assert PageWindow(10, 10) == Window(8, 10);
    assert WindowLinks(8, 10, 10) == [PageLink(8, false), PageLink(9, false), PageLink(10, true)];
  }
}

=== FILE: posts_api.dfy ===
/**
  The content API client: builds the `posts` listing URL from section, page and
  page size, and turns any failure of the request into a fixed, well-formed
  empty page instead of an exception. The HTTP request and
  `encodeURIComponent` are parameters of the model.
*/
module PostsApi {
  import opened Common
  import Pagination

  /** The four editorial sections a post belongs to. */
  datatype Section = Occasions | Announcements | News | Achievements

  /** The label the content API uses for each section. */
  function SectionLabel(s: Section): string {
    match s
    case Occasions => "مناسبت ها"
    case Announcements => "اطلاعیه ها"
    case News => "اخبار ها"
    case Achievements => "افتخارات"
  }

  /** Reads a label back; anything but the four labels is no section. */
  function ParseSection(text: string): (r: Option<Section>)
    ensures r.Some? ==> SectionLabel(r.value) == text
  {
    if text == SectionLabel(Occasions) then Some(Occasions)
    else if text == SectionLabel(Announcements) then Some(Announcements)
    else if text == SectionLabel(News) then Some(News)
    else if text == SectionLabel(Achievements) then Some(Achievements)
    else None
  }

  /** Every section's label reads back as that section, so the labels are distinct. */
  lemma SectionLabelRoundTrip(s: Section)
    ensures ParseSection(SectionLabel(s)) == Some(s)
  {
    assert SectionLabel(Occasions)[0] != SectionLabel(Announcements)[0];
    assert SectionLabel(Occasions)[0] != SectionLabel(News)[0];
    assert SectionLabel(Occasions)[0] != SectionLabel(Achievements)[0];
    assert SectionLabel(Announcements)[1] != SectionLabel(News)[1];
    assert SectionLabel(Announcements)[1] != SectionLabel(Achievements)[1];
    assert SectionLabel(News)[1] != SectionLabel(Achievements)[1];
  }

  datatype Author = Author(id: string, username: string)

  /** A post as the content API returns it (rating figures left out). */
  datatype Post = Post(
    id: string,
    title: string,
    description: string,
    content: string,
    tags: seq<string>,
    section: Section,
    leadPicture: string,
    createdAt: string,
    updatedAt: string,
    readingTime: int,
    author: Option<Author>)

  datatype Meta = Meta(currentPage: int, itemsPerPage: int, totalItems: int, totalPages: int)

  datatype ApiResponse = ApiResponse(data: seq<Post>, meta: Meta)

  /** How the one request ended: a 2xx response whose body parsed, a response
      with another status, or an exception (network failure, unreadable body). */
  datatype FetchOutcome = Ok(body: ApiResponse) | NotOk(status: int) | Threw

  const DefaultApiUrl := "http://localhost:3100"
  const DefaultPage := 1
  const DefaultLimit := 10

  function OrElse<T>(o: Option<T>, default: T): (r: T)
    ensures o.Some? ==> r == o.value
    ensures o.None? ==> r == default
  {
    match o
    case Some(v) => v
    case None => default
  }

  /** The `API_URL` environment value when set and non-empty, else the local default. */
  function ApiBase(env: Option<string>): (r: string)
    ensures env.Some? && env.value != "" ==> r == env.value
    ensures env.None? || env.value == "" ==> r == DefaultApiUrl
  {
    if env.Some? && env.value != "" then env.value else DefaultApiUrl
  }

  /** A section argument counts only when it is a non-empty string. */
  predicate Truthy(section: Option<string>) {
    section.Some? && section.value != ""
  }

  /** The query string of the listing request: `page` and `limit` first, then
      one `section` field only when one is given, and nothing else. */
  function PostsQuery(section: Option<string>, page: int, limit: int, encode: string -> string): (r: string)
    ensures var head := "page=" + IntToString(page) + "&limit=" + IntToString(limit);
      && |head| <= |r| && r[..|head|] == head
      && (Truthy(section) <==> |r| > |head|)
      && (Truthy(section) ==> r[|head|..] == "&section=" + encode(section.value))
      && (!Truthy(section) ==> r == head)
  {
    var q := "page=" + IntToString(page) + "&limit=" + IntToString(limit);
    if Truthy(section) then q + "&section=" + encode(section.value) else q
  }

  /** The listing request's URL: the API base, the `/posts` path, then the query. */
  function PostsUrl(base: string, section: Option<string>, page: int, limit: int, encode: string -> string): (r: string)
    ensures var path := base + "/posts?";
      && |path| < |r| && r[..|path|] == path
      && r[|path|..] == PostsQuery(section, page, limit, encode)
  {
    base + "/posts?" + PostsQuery(section, page, limit, encode)
  }

  /** The page returned on any failure: no posts, page 1 of 0. */
  function Fallback(limit: int): (r: ApiResponse)
    ensures r.data == []
    ensures r.meta.currentPage == 1 && r.meta.itemsPerPage == limit
    ensures r.meta.totalItems == 0 && r.meta.totalPages == 0
  {
    ApiResponse([], Meta(1, limit, 0, 0))
  }

  /** The request the listing makes and what it hands back: the parsed body on
      a 2xx response, the fallback page on every other outcome. Nothing is
      raised to the caller, whatever `respond` does. */
  function FetchPosts(env: Option<string>, section: Option<string>, page: Option<int>, limit: Option<int>,
                      encode: string -> string, respond: string -> FetchOutcome): (r: ApiResponse)
    ensures var url := PostsUrl(ApiBase(env), section, OrElse(page, DefaultPage), OrElse(limit, DefaultLimit), encode);
      && (respond(url).Ok? ==> r == respond(url).body)
      && (!respond(url).Ok? ==> r == Fallback(OrElse(limit, DefaultLimit)))
  {
    var lim := OrElse(limit, DefaultLimit);
    var url := PostsUrl(ApiBase(env), section, OrElse(page, DefaultPage), lim, encode);
    match respond(url)
    case Ok(body) => body
    case NotOk(_) => Fallback(lim)
    case Threw => Fallback(lim)
  }

  /** A failed listing request renders no pagination control. */
  lemma FallbackHidesPagination(env: Option<string>, section: Option<string>, page: Option<int>,
                                limit: Option<int>, encode: string -> string, respond: string -> FetchOutcome)
    requires !respond(PostsUrl(ApiBase(env), section, OrElse(page, DefaultPage), OrElse(limit, DefaultLimit), encode)).Ok?
    ensures var r := FetchPosts(env, section, page, limit, encode, respond);
      Pagination.Render(r.meta.currentPage, r.meta.totalPages) == []
  {
    var r := FetchPosts(env, section, page, limit, encode, respond);
  }

  // ---------------------------------------------------------------------------
  // Reading the query string back.

  /** The `name=value` fields of a query string, the first occurrence of a
      name winning, without percent-decoding. */
  function ReadQuery(q: string): Params {
    ReadFields(Split(q, '&'))
  }

  function ReadFields(fields: seq<string>): Params
    decreases |fields|
  {
    if |fields| == 0 then map[]
    else ReadFields(fields[1..])[FieldName(fields[0]) := FieldValue(fields[0])]
  }

  /** The text before the first `=` of a field. */
  function FieldName(field: string): string {
    Split(field, '=')[0]
  }

  /** The text after the first `=` of a field. */
  function FieldValue(field: string): string {
    Join(Split(field, '=')[1..], '=')
  }

  /** An encoder that, like `encodeURIComponent`, never emits `&` or `=`. */
  ghost predicate EscapesDelimiters(encode: string -> string) {
    forall s :: '&' !in encode(s) && '=' !in encode(s)
  }

  /** The `&`-separated fields of the listing query. */
  function QueryFields(section: Option<string>, page: int, limit: int, encode: string -> string): seq<string> {
    ["page=" + IntToString(page), "limit=" + IntToString(limit)] + SectionFields(section, encode)
  }

  /** The section field, present only for a non-empty section. */
  function SectionFields(section: Option<string>, encode: string -> string): seq<string> {
    if Truthy(section) then ["section=" + encode(section.value)] else []
  }

  lemma SplitTwo(a: string, b: string, sep: char)
    requires sep !in a && sep !in b
    ensures Split(a + [sep] + b, sep) == [a, b]
  {
    var l := [a, b];
    assert l[1..] == [b];
    SplitJoin(l, sep);
  }

  lemma SplitThree(a: string, b: string, c: string, sep: char)
    requires sep !in a && sep !in b && sep !in c
    ensures Split(a + [sep] + b + [sep] + c, sep) == [a, b, c]
  {
    var l := [a, b, c];
    assert l[1..] == [b, c] && l[1..][1..] == [c];
    assert Join(l[1..], sep) == b + [sep] + c;
    assert a + [sep] + b + [sep] + c == a + [sep] + (b + [sep] + c);
    SplitJoin(l, sep);
  }

  lemma NoAmpersand(name: string, value: string)
    requires '&' !in name
    requires forall i :: 0 <= i < |value| ==> IsDigit(value[i]) || value[i] == '-'
    ensures '&' !in name + "=" + value
  {
    assert forall i :: 0 <= i < |value| ==> value[i] != '&';
  }

  lemma QuerySplits(section: Option<string>, page: int, limit: int, encode: string -> string)
    requires EscapesDelimiters(encode)
    ensures Split(PostsQuery(section, page, limit, encode), '&') == QueryFields(section, page, limit, encode)
  {
    var p := IntToString(page);
    var l := IntToString(limit);
    NoAmpersand("page", p);
    NoAmpersand("limit", l);
    assert "page" + "=" + p == "page=" + p;
    assert "limit" + "=" + l == "limit=" + l;
    if Truthy(section) {
      var e := encode(section.value);
      assert '&' !in "section=" + e;
      SplitPageLimitSection(p, l, e);
    } else {
      SplitPageLimit(p, l);
    }
  }

  /** The query without a section splits into its page and limit fields. */
  lemma SplitPageLimit(p: string, l: string)
    requires '&' !in "page=" + p && '&' !in "limit=" + l
    ensures Split("page=" + p + "&limit=" + l, '&') == ["page=" + p, "limit=" + l]
  {
    assert "page=" + p + "&limit=" + l == ("page=" + p) + ['&'] + ("limit=" + l);
    SplitTwo("page=" + p, "limit=" + l, '&');
  }

  /** The query with a section splits into its three fields. */
  lemma SplitPageLimitSection(p: string, l: string, e: string)
    requires '&' !in "page=" + p && '&' !in "limit=" + l && '&' !in "section=" + e
    ensures Split("page=" + p + "&limit=" + l + "&section=" + e, '&') == ["page=" + p, "limit=" + l, "section=" + e]
  {
    assert "page=" + p + "&limit=" + l + "&section=" + e
      == ("page=" + p) + ['&'] + ("limit=" + l) + ['&'] + ("section=" + e);
    SplitThree("page=" + p, "limit=" + l, "section=" + e, '&');
  }

  /** `name=value` with neither part holding `=` reads back as that name and value. */
  lemma FieldReadsBack(name: string, value: string)
    requires '=' !in name && '=' !in value
    ensures FieldName(name + "=" + value) == name
    ensures FieldValue(name + "=" + value) == value
  {
    SplitTwo(name, value, '=');
    assert [name, value][1..] == [value];
  }

  lemma ReadFieldsCons(f: string, rest: seq<string>)
    ensures ReadFields([f] + rest) == ReadFields(rest)[FieldName(f) := FieldValue(f)]
  {
    assert ([f] + rest)[1..] == rest;
  }

  /** The page and limit fields read back ahead of whatever follows them. */
  lemma ReadPageAndLimit(p: string, l: string, rest: seq<string>)
    requires '=' !in p && '=' !in l
    ensures ReadFields(["page=" + p, "limit=" + l] + rest) == ReadFields(rest)["limit" := l]["page" := p]
  {
    assert "page=" + p == "page" + "=" + p;
    assert "limit=" + l == "limit" + "=" + l;
    FieldReadsBack("page", p);
    FieldReadsBack("limit", l);
    assert ["page=" + p, "limit=" + l] + rest == ["page=" + p] + (["limit=" + l] + rest);
    ReadFieldsCons("limit=" + l, rest);
    ReadFieldsCons("page=" + p, ["limit=" + l] + rest);
  }

  /** The fields after page and limit: the section alone, or nothing. */
  lemma ReadSectionField(section: Option<string>, encode: string -> string)
    requires EscapesDelimiters(encode)
    ensures ReadFields(SectionFields(section, encode))
      == if Truthy(section) then map["section" := encode(section.value)] else map[]
  {
    if Truthy(section) {
      var e := encode(section.value);
      assert "section=" + e == "section" + "=" + e;
      FieldReadsBack("section", e);
      ReadFieldsCons("section=" + e, []);
      assert ["section=" + e] == ["section=" + e] + [];
    }
  }

  /** The listing query read back as a map. */
  lemma QueryMap(section: Option<string>, page: int, limit: int, encode: string -> string)
    requires EscapesDelimiters(encode)
    ensures ReadQuery(PostsQuery(section, page, limit, encode))
      == ReadFields(SectionFields(section, encode))["limit" := IntToString(limit)]["page" := IntToString(page)]
  {
    QuerySplits(section, page, limit, encode);
    ReadPageAndLimit(IntToString(page), IntToString(limit), SectionFields(section, encode));
  }

  /** The listing query reads back as its page, its page size and, when one
      was given, the encoded section. */
  lemma PostsQueryReadsBack(section: Option<string>, page: int, limit: int, encode: string -> string)
    requires EscapesDelimiters(encode)
    ensures var m := ReadQuery(PostsQuery(section, page, limit, encode));
      && "page" in m && ParseInt(m["page"]) == Some(page)
      && "limit" in m && ParseInt(m["limit"]) == Some(limit)
      && ("section" in m <==> Truthy(section))
      && (Truthy(section) ==> m["section"] == encode(section.value))
      && m.Keys <= {"page", "limit", "section"}
  {
    QueryMap(section, page, limit, encode);
    ReadSectionField(section, encode);
    IntToStringRoundTrip(page);
    IntToStringRoundTrip(limit);
  }
}

=== FILE: related_posts.dfy ===
/**
  The "related posts" sidebar: one linked entry per post, with an optional
  image and a plain-text excerpt of at most sixty characters cut from the
  post's HTML after its markup tags are removed.
*/
module RelatedPosts {
  import opened Common
  import ImageUrl

  const ExcerptLength := 60
  const Ellipsis := "..."

  /** Index of the first `c` in `s` at or after `from`. */
  function IndexFrom(s: string, c: char, from: nat): (r: Option<nat>)
    requires from <= |s|
    ensures r.Some? ==> from <= r.value < |s| && s[r.value] == c
    ensures r.Some? ==> forall k :: from <= k < r.value ==> s[k] != c
    ensures r.None? ==> forall k :: from <= k < |s| ==> s[k] != c
    decreases |s| - from
  {
    if from == |s| then None
    else if s[from] == c then Some(from)
    else IndexFrom(s, c, from + 1)
  }

  /** Where `/<[^>]+>/` matches at the start of `s`: a `<`, one or more
      characters other than `>`, then a `>`. Gives the index just past the
      match. */
  function TagEnd(s: string): (r: Option<nat>)
    ensures r.Some? ==> 3 <= r.value <= |s|
    ensures r.Some? ==> s[0] == '<' && s[r.value - 1] == '>' && '>' !in s[1..r.value - 1]
    ensures r.None? && |s| >= 2 && s[0] == '<' && s[1] != '>' ==> '>' !in s[1..]
  {
    if |s| > 0 && s[0] == '<' then
      match IndexFrom(s, '>', 1)
      case Some(j) => if j >= 2 then Some(j + 1) else None
      case None => None
    else None
  }

  /** No position of `s` starts a tag. */
  ghost predicate HasNoTag(s: string) {
    forall i :: 0 <= i < |s| ==> TagEnd(s[i..]).None?
  }

  /** `.replace(/<[^>]+>/g, "")`: tags removed in one left-to-right pass. */
  function StripTags(s: string): (r: string)
    ensures |r| <= |s|
    ensures forall i :: 0 <= i < |r| ==> r[i] in s
    decreases |s|
  {
    if |s| == 0 then ""
    else match TagEnd(s)
      case Some(e) => StripTags(s[e..])
      case None => [s[0]] + StripTags(s[1..])
  }

  /** A whole match of `/<[^>]+>/`: a `<`, one or more characters other than
      `>`, then a `>`. */
  ghost predicate IsTag(t: string) {
    |t| >= 3 && t[0] == '<' && t[|t| - 1] == '>' && '>' !in t[1..|t| - 1]
  }

  /** Text holding no `<` is kept as it is in front of whatever follows. */
  lemma {:induction false} StripText(a: string, b: string)
    requires '<' !in a
    ensures StripTags(a + b) == a + StripTags(b)
    decreases |a|
  {
    if |a| == 0 {
      assert a + b == b;
    } else {
      var ab := a + b;
      assert ab[0] == a[0] && ab[1..] == a[1..] + b;
      assert '<' !in a[1..];
      StripText(a[1..], b);
      ConcatAssoc([a[0]], a[1..], StripTags(b));
      assert [a[0]] + a[1..] == a;
    }
  }

  /** A tag at the front is removed whole, and stripping goes on after it. */
  lemma StripTag(t: string, b: string)
    requires IsTag(t)
    ensures StripTags(t + b) == StripTags(b)
  {
    var s := t + b;
    var k := |t| - 1;
    assert s[0] == '<' && s[k] == '>';
    assert forall m :: 1 <= m < k ==> s[m] == t[1..k][m - 1];
    var j := IndexFrom(s, '>', 1);
    assert j == Some(k);
    assert TagEnd(s) == Some(|t|);
    assert s[|t|..] == b;
  }

  /** `<>` is no tag (the pattern needs a character between the brackets),
      so it is kept, and stripping goes on right after it. */
  lemma StripEmptyBrackets(b: string)
    ensures StripTags("<>" + b) == "<>" + StripTags(b)
  {
    var s := "<>" + b;
    StripBracketsAt(s);
    assert s[2..] == b;
    assert [s[0], s[1]] == "<>";
  }

  /** `StripEmptyBrackets` for any text that starts with `<>`. */
  lemma StripBracketsAt(s: string)
    requires |s| >= 2 && s[0] == '<' && s[1] == '>'
    ensures StripTags(s) == [s[0], s[1]] + StripTags(s[2..])
  {
    assert IndexFrom(s, '>', 1) == Some(1);
    assert TagEnd(s).None?;
    var t := s[1..];
    assert t[0] == '>' && t[1..] == s[2..];
    assert TagEnd(t).None?;
  }

  /** Text between an opening and a closing tag (`<b>hi</b>`) strips to the
      text alone. */
  lemma StripEnclosed(opening: string, a: string, closing: string)
    requires IsTag(opening) && IsTag(closing) && '<' !in a
    ensures StripTags(opening + a + closing) == a
  {
    ConcatAssoc(opening, a, closing);
    StripTag(opening, a + closing);
    StripText(a, closing);
    StripTag(closing, []);
    assert closing + [] == closing;
    assert a + [] == a;
  }

  /** Stripping introduces no `>` that was not there. */
  lemma {:induction false} StripKeepsNoClose(s: string)
    requires '>' !in s
    ensures '>' !in StripTags(s)
    decreases |s|
  {
    if |s| > 0 {
      assert '>' !in s[1..];
      // A tag needs a `>`, so none starts here.
      assert TagEnd(s).None?;
      StripKeepsNoClose(s[1..]);
    }
  }

  /** Stripped text contains nothing the pattern would match. */
  lemma {:induction false} StripTagsNoTag(s: string)
    ensures HasNoTag(StripTags(s))
    decreases |s|
  {
    if |s| > 0 {
      match TagEnd(s)
      case Some(e) =>
        StripTagsNoTag(s[e..]);
      case None =>
        StripTagsNoTag(s[1..]);
        var t := StripTags(s[1..]);
        var r := [s[0]] + t;
        forall i | 0 <= i < |r|
          ensures TagEnd(r[i..]).None?
        {
          if i == 0 {
            if s[0] == '<' {
              FirstIsNotTag(s, t);
            }
          } else {
            assert r[i..] == t[i - 1..];
          }
        }
    }
  }

  /** A `<` that did not start a tag in the input does not start one after the
      rest has been stripped. */
  lemma FirstIsNotTag(s: string, t: string)
    requires |s| > 0 && s[0] == '<' && TagEnd(s).None?
    requires t == StripTags(s[1..])
    ensures TagEnd([s[0]] + t).None?
  {
    var r := [s[0]] + t;
    match IndexFrom(s, '>', 1)
    case Some(j) =>
      assert j == 1;
      assert TagEnd(s[1..]).None?;
      assert t == [s[1]] + StripTags(s[2..]) by { assert s[1..][1..] == s[2..]; }
      assert r[1] == '>';
      assert IndexFrom(r, '>', 1) == Some(1);
    case None =>
      assert '>' !in s[1..];
      StripKeepsNoClose(s[1..]);
      assert forall k :: 1 <= k < |r| ==> r[k] == t[k - 1];
      assert IndexFrom(r, '>', 1).None?;
  }

  /** Text without tags is left as it is, so stripping twice is stripping once. */
  lemma {:induction false} StripTagsIdempotent(s: string)
    requires HasNoTag(s)
    ensures StripTags(s) == s
    decreases |s|
  {
    if |s| > 0 {
      assert s[0..] == s;
      assert HasNoTag(s[1..]) by {
        forall i | 0 <= i < |s[1..]| ensures TagEnd(s[1..][i..]).None? {
          assert s[1..][i..] == s[i + 1..];
        }
      }
      StripTagsIdempotent(s[1..]);
    }
  }

  /** Cutting text short cannot create a tag. */
  lemma PrefixHasNoTag(s: string, n: nat)
    requires HasNoTag(s) && n <= |s|
    ensures HasNoTag(s[..n])
  {
    var p := s[..n];
    forall i | 0 <= i < |p|
      ensures TagEnd(p[i..]).None?
    {
      var a := p[i..];
      var b := s[i..];
      assert TagEnd(b).None?;
      if |a| > 0 && a[0] == '<' {
        assert forall k :: 0 <= k < |a| ==> a[k] == b[k];
        match IndexFrom(a, '>', 1)
        case Some(j) =>
          var jb := IndexFrom(b, '>', 1);
          assert jb.Some? && jb.value <= j;
          assert jb.value == j;
        case None =>
      }
    }
  }

  /** The first `n` characters, or all of them when there are fewer (`slice(0, n)`). */
  function Take(s: string, n: nat): (r: string)
    ensures |r| == if |s| <= n then |s| else n
    ensures r == s[..|r|]
  {
    if |s| <= n then s else s[..n]
  }

  /** The excerpt under a related post's title: the first sixty characters of
      its tag-free text and an ellipsis; just the ellipsis without content. */
  function Excerpt(content: Option<string>): (r: string)
    ensures |r| <= ExcerptLength + |Ellipsis|
    ensures |r| >= |Ellipsis| && r[|r| - |Ellipsis|..] == Ellipsis
    ensures content.None? ==> r == Ellipsis
    ensures content.Some? ==> r[..|r| - |Ellipsis|] == Take(StripTags(content.value), ExcerptLength)
  {
    match content
    case None => Ellipsis
    case Some(c) => Take(StripTags(c), ExcerptLength) + Ellipsis
  }

  /** The excerpt's text is a tag-free prefix of the stripped content. */
  lemma ExcerptHasNoTag(content: string)
    ensures var r := Excerpt(Some(content));
      && HasNoTag(r[..|r| - |Ellipsis|])
      && r[..|r| - |Ellipsis|] == StripTags(content)[..|r| - |Ellipsis|]
  {
    var t := StripTags(content);
    StripTagsNoTag(content);
    PrefixHasNoTag(t, |Take(t, ExcerptLength)|);
  }

  /** A post as the sidebar receives it. */
  datatype RelatedPost = RelatedPost(id: string, title: string, content: Option<string>, leadPicture: Option<string>)

  /** One rendered entry: its link, title, image (if any) and excerpt. */
  datatype Entry = Entry(href: string, title: string, image: Option<string>, excerpt: string)

  function EntryOf(post: RelatedPost, base: Option<string>): Entry {
    Entry("/blog/" + post.id, post.title,
          if post.leadPicture.Some? && post.leadPicture.value != ""
          then Some(ImageUrl.ParseImageUrl(base, post.leadPicture)) else None,
          Excerpt(post.content))
  }

  /** The sidebar: nothing for a missing or empty list, otherwise one entry per
      post in order, linking to the post, with the joined image URL exactly
      when the post has a lead picture, and the excerpt of its content. */
  function Render(posts: Option<seq<RelatedPost>>, base: Option<string>): (r: Option<seq<Entry>>)
    ensures r.None? <==> posts.None? || |posts.value| == 0
    ensures r.Some? ==> |r.value| == |posts.value|
    ensures r.Some? ==> forall i :: 0 <= i < |r.value| ==>
      && r.value[i].href == "/blog/" + posts.value[i].id
      && r.value[i].title == posts.value[i].title
      && (r.value[i].image.Some? <==> posts.value[i].leadPicture.Some? && posts.value[i].leadPicture.value != "")
      && (r.value[i].image.Some? ==> r.value[i].image.value == ImageUrl.ParseImageUrl(base, posts.value[i].leadPicture))
      && r.value[i].excerpt == Excerpt(posts.value[i].content)
      && |r.value[i].excerpt| <= ExcerptLength + |Ellipsis|
  {
    if posts.None? || |posts.value| == 0 then None
    else Some(seq(|posts.value|, i requires 0 <= i < |posts.value| => EntryOf(posts.value[i], base)))
  }
}

=== FILE: stars.dfy ===
/**
  Star ratings, drawn two ways: the React component that fills the first
  `round(rating)` of five stars, and the legacy page script that appends
  `rate` full stars and `5 - rate` empty ones for every `.stars` element.
*/
module Stars {
  import opened Common

  const StarCount := 5

  function CountTrue(s: seq<bool>): (n: nat)
    ensures n <= |s|
  {
    if |s| == 0 then 0 else (if s[0] then 1 else 0) + CountTrue(s[1..])
  }

  /** `true` in a prefix and `false` after it. */
  predicate FilledFirst(s: seq<bool>) {
    forall i, j :: 0 <= i < j < |s| && s[j] ==> s[i]
  }

  /** `k` trues followed by `m` falses. */
  function Stars(k: nat, m: nat): (r: seq<bool>)
    ensures |r| == k + m
    ensures forall i :: 0 <= i < |r| ==> (r[i] <==> i < k)
  {
    seq(k + m, i requires 0 <= i < k + m => i < k)
  }

  lemma {:induction false} CountStars(k: nat, m: nat)
    ensures CountTrue(Stars(k, m)) == k
    decreases k + m
  {
    var r := Stars(k, m);
    if k > 0 {
      assert r[1..] == Stars(k - 1, m);
      CountStars(k - 1, m);
    } else if m > 0 {
      assert r[1..] == Stars(0, m - 1);
      CountStars(0, m - 1);
    }
  }

  /** The component's five stars for an already rounded rating: star `i + 1`
      is filled exactly when `i + 1 <= rounded`. */
  function RatingStars(rounded: int): (r: seq<bool>)
    ensures |r| == StarCount
    ensures forall i :: 0 <= i < StarCount ==> (r[i] <==> i + 1 <= rounded)
  {
    seq(StarCount, i requires 0 <= i < StarCount => i + 1 <= rounded)
  }

  function Clamp(x: int, lo: int, hi: int): int
    requires lo <= hi
  {
    if x < lo then lo else if x > hi then hi else x
  }

  /** The filled stars come first and there are `clamp(rounded, 0, 5)` of them. */
  lemma RatingStarsCount(rounded: int)
    ensures FilledFirst(RatingStars(rounded))
    ensures CountTrue(RatingStars(rounded)) == Clamp(rounded, 0, StarCount)
  {
    var c := Clamp(rounded, 0, StarCount);
    assert RatingStars(rounded) == Stars(c, StarCount - c);
    CountStars(c, StarCount - c);
  }

  /** The `slot` attribute of a `.stars` element: absent or empty, the decimal
      text of an integer, or text that is not a number. */
  datatype Slot = EmptySlot | Rate(n: int) | NotANumber

  /** What the script appends: nothing for an empty slot (the `if (rate)`
      guard; the text "0" is not empty and passes it); otherwise a list of
      `max(0, n)` full stars then `max(0, 5 - n)` empty ones. Text that is not
      a number fails every comparison, so the list is empty. */
  function StarList(slot: Slot): (r: Option<seq<bool>>)
    ensures r.None? <==> slot.EmptySlot?
    ensures slot.NotANumber? ==> r == Some([])
    ensures slot.Rate? ==> |r.value| == Max(0, slot.n) + Max(0, StarCount - slot.n)
    ensures slot.Rate? ==> FilledFirst(r.value)
    ensures slot.Rate? ==> forall i :: 0 <= i < |r.value| ==> (r.value[i] <==> i < slot.n)
  {
    match slot
    case EmptySlot => None
    case NotANumber => Some([])
    case Rate(n) => Some(Stars(Max(0, n), Max(0, StarCount - n)))
  }

  /** Full stars number `max(0, rate)`; a rating out of 0..5 gives a list
      whose length is not five. */
  lemma StarListCounts(n: int)
    ensures CountTrue(StarList(Rate(n)).value) == Max(0, n)
    ensures |StarList(Rate(n)).value| == StarCount <==> 0 <= n <= StarCount
  {
    assert StarList(Rate(n)).value == Stars(Max(0, n), Max(0, StarCount - n));
    CountStars(Max(0, n), Max(0, StarCount - n));
  }

  /** For a rating from 0 to 5 the script and the component draw the same stars. */
  lemma ScriptAgreesWithComponent(n: int)
    requires 0 <= n <= StarCount
    ensures StarList(Rate(n)) == Some(RatingStars(n))
  {
    var a := StarList(Rate(n)).value;
    var b := RatingStars(n);
    assert |a| == |b|;
    forall i | 0 <= i < |a| ensures a[i] == b[i] {}
    assert a == b;
  }
}

=== FILE: tag_filter.dfy ===
/**
  The blog listing's tag filter. The selected tags live in the `tags` query
  parameter as a comma-separated list; clicking a tag toggles it, rewrites or
  deletes `tags`, and sends the reader back to page 1.
*/
module TagFilter {
  import opened Common

  /** The selected tags: the comma split of `tags`, or none when it is absent.
      A present but empty `tags` reads as one empty tag, as `"".split(",")` does. */
  function CurrentTags(params: Params): (r: seq<string>)
    ensures "tags" !in params ==> r == []
    ensures "tags" in params ==> |r| >= 1 && Join(r, ',') == params["tags"]
    ensures forall i :: 0 <= i < |r| ==> ',' !in r[i]
  {
    if "tags" in params then
      JoinSplit(params["tags"], ',');
      Split(params["tags"], ',')
    else []
  }

  /** The new selection: drop every copy of a selected tag, or append a new one. */
  function Toggle(current: seq<string>, tag: string): (r: seq<string>)
    ensures tag in current ==> tag !in r && Subsequence(r, current)
    ensures tag in current ==> |r| == |current| - Count(current, tag)
    ensures tag in current ==> forall i :: 0 <= i < |r| ==> r[i] in current && r[i] != tag
    ensures tag in current ==> forall i :: 0 <= i < |current| && current[i] != tag ==> current[i] in r
    ensures tag !in current ==> |r| == |current| + 1 && r[..|current|] == current && r[|current|] == tag
  {
    if tag in current then RemoveAll(current, tag) else current + [tag]
  }

  /** The query after clicking `tag`. */
  function TagClick(params: Params, tag: string): (r: Params)
    ensures "page" in r && r["page"] == "1"
    ensures forall k :: k != "tags" && k != "page" ==> (k in r <==> k in params)
    ensures forall k :: k in params && k != "tags" && k != "page" ==> r[k] == params[k]
    ensures "tags" in r <==> |Toggle(CurrentTags(params), tag)| > 0
    ensures "tags" in r ==> r["tags"] == Join(Toggle(CurrentTags(params), tag), ',')
  {
    var newTags := Toggle(CurrentTags(params), tag);
    var withTags := if |newTags| > 0 then params["tags" := Join(newTags, ',')] else params - {"tags"};
    withTags["page" := "1"]
  }

  /** After a click, the selection read back from the query is the toggled one
      (for a tag name without a comma, which could not be told apart from two). */
  lemma ClickReadsBack(params: Params, tag: string)
    requires ',' !in tag
    ensures CurrentTags(TagClick(params, tag)) == Toggle(CurrentTags(params), tag)
  {
    var newTags := Toggle(CurrentTags(params), tag);
    if |newTags| > 0 {
      forall i | 0 <= i < |newTags|
        ensures ',' !in newTags[i]
      {
        if tag !in CurrentTags(params) && i == |newTags| - 1 {
        } else {
          assert newTags[i] in CurrentTags(params);
        }
      }
      SplitJoin(newTags, ',');
    }
  }

  /** Selecting a new tag and then clicking it again leaves the selection as it
      was; only `page` has been reset. */
  lemma ClickTwiceRestores(params: Params, tag: string)
    requires ',' !in tag
    requires tag !in CurrentTags(params)
    ensures TagClick(TagClick(params, tag), tag) == params["page" := "1"]
  {
    var cur := CurrentTags(params);
    var once := TagClick(params, tag);
    ClickReadsBack(params, tag);
    assert CurrentTags(once) == cur + [tag];
    ToggleBack(cur, tag);
    var twice := TagClick(once, tag);
    var expected := params["page" := "1"];
    assert Toggle(CurrentTags(once), tag) == cur;
    assert "tags" in twice <==> "tags" in params;
    if "tags" in params {
      assert twice["tags"] == Join(cur, ',') == params["tags"];
    }
    assert twice.Keys == expected.Keys;
    forall k | k in twice
      ensures twice[k] == expected[k]
    {
    }
  }

  /** Removing a tag that was just appended gives back the list before it. */
  lemma ToggleBack(cur: seq<string>, tag: string)
    requires tag !in cur
    ensures Toggle(cur + [tag], tag) == cur
  {
    assert tag in cur + [tag];
    RemoveAllAppended(cur, tag);
    RemoveAllAbsent(cur, tag);
  }

  /** One rendered tag button. */
  datatype Button = Button(tag: string, active: bool)

  /** The button row: nothing when there are no tags, otherwise one button per
      tag in order, lit exactly when the tag is among the active ones. */
  function RenderButtons(tags: seq<string>, activeTags: seq<string>): (r: Option<seq<Button>>)
    ensures r.None? <==> |tags| == 0
    ensures r.Some? ==> |r.value| == |tags|
    ensures r.Some? ==> forall i :: 0 <= i < |tags| ==>
      r.value[i].tag == tags[i] && (r.value[i].active <==> tags[i] in activeTags)
  {
    if |tags| == 0 then None
    else Some(seq(|tags|, i requires 0 <= i < |tags| => Button(tags[i], tags[i] in activeTags)))
  }
}
